=== FILE: README.md ===
# impermalink link capture and list management, in Dafny

impermalink stores links for its users. This project models the logic behind
that:

- what gets stored when a URL is saved;
- how saved links are grouped by domain for the list view;
- how links move into and out of the recycle bin;
- how links are deleted;
- how the schema migrations run.

The browser, HTTP client, MIME table, colour sampler and URL parser become
inputs. Each one is a function-typed field of a datatype passed to the
operation. The `links` table becomes a class holding a sequence of rows and
an integer clock. Each SQL statement is a function on that sequence of rows.
Only whether an insert or a migration throws is an input.

Modules, one per file:

- `wrappers.dfy`: `Option` and `Result`.
- `text.dfy`: prefix, suffix and substring tests, and ASCII lower-casing.
- `colors.dfy`: `hexToRgb`, the Tailwind palette, the weighted colour
  distance and the nearest-colour pick of `parseColorsForImage`
  (sapper/src/routes/app/storeLink.ts).
- `web.dfy`: parsed URLs, what a loaded page yields, the error kinds, and the
  page pool as a counter of checked-out pages.
- `links.dfy`: the `Link` row, SQLite's row-id rule and the insert.
- `recycle_bin.dfy`: the SQL statements of the recycle-bin and delete
  routes, as functions on the rows, with the lemmas about them.
- `link_table.dfy`: the `Table` class whose methods are the three routes.
- `store_link.dfy`: `truncate`, URL unwrapping, content-type classification,
  `getPageFields` and `add` of the current capture code.
- `link_adder.dfy`: the older `getPageFields`/`add` of src/lib/linkAdder.ts.
- `grouping.dfy`: the domain grouping of sapper/src/routes/app.json.ts.
- `migrations.dfy`: the migration transaction of src/lib/db.ts.

Some behaviours of the code are easy to misread. The model keeps each of
them as written:

- `truncate` (sapper/src/routes/app/storeLink.ts:87-95) appends `"..."` to
  every string longer than `maxLength - 3`. A result is therefore not capped
  at 280 characters: it can be up to 283 long. A 278- to 280-character title
  gets an ellipsis although nothing was cut.
- Deduplication in `add` (sapper/src/routes/app/storeLink.ts:231-234) looks
  for any row of the owner with the same final URL, whatever its
  `dateDeleted`. A link sitting in the recycle bin therefore blocks adding
  the same URL again.
- The grouping counts and lists deleted rows as well.
- The palette drops only bare `#fff`/`#000` entries. A nested palette whose
  `"400"` shade is white or black would stay.
- The nearest colour is picked by a sort whose comparator never answers 0
  (sapper/src/routes/app/storeLink.ts:117). The winner among equal
  distances therefore depends on the sort algorithm. The model picks the
  first minimal entry. The proved property is only that the chosen colour
  is in the palette and at minimal distance.
- The favicon comes only from the page's `link[rel="icon"]`. There is no
  root `/favicon.ico` attempt and no image conversion step.
- The recycle-bin size is fixed at 1 in the purge statement, not
  configurable.
- The older variant (src/lib/linkAdder.ts) does not give its browser page
  back when navigation throws. The model keeps that leak. See
  `LinkAdder.GetPageFields`.

## Model

| member | source | states |
|---|---|---|
| Colors.HexToRgb | sapper/src/routes/app/storeLink.ts:17-32 | a triple comes back exactly when the input, after an optional `#`, is three or six hex digits; every channel is in 0..255; six digits `rrggbb` give 16·r₁+r₂ per channel, three digits `rgb` give 17·r per channel |
| Colors.HexToRgbToHex | sapper/src/routes/app/storeLink.ts:17-32 | every in-range colour written as lower-case `#rrggbb` parses back to the same colour |
| Colors.ParseHexByte | sapper/src/routes/app/storeLink.ts:27-29 | `parseInt` of two hex digits is a byte whose high and low nibbles are the two digits' values |
| Colors.HexToRgbCaseInsensitive | sapper/src/routes/app/storeLink.ts:19-24 | lower-casing the input never changes the parse (the `/i` flag) |
| Colors.HexToRgbOptionalHash | sapper/src/routes/app/storeLink.ts:19-24 | a leading `#` is optional: prefixing one gives the same result |
| Colors.HexToRgbShorthand | sapper/src/routes/app/storeLink.ts:18-22 | `abc` and `aabbcc` parse to the same result, whether or not they are hex |
| Colors.PaletteValue | sapper/src/routes/app/storeLink.ts:35-43 | a bare entry contributes itself unless empty or `#fff`/`#000` in any case; a nested palette contributes exactly its non-empty `"400"` shade |
| Colors.Palette | sapper/src/routes/app/storeLink.ts:34-43 | the palette has at most one colour per table entry |
| Colors.PaletteMembership | sapper/src/routes/app/storeLink.ts:34-43 | a colour is in the palette iff some table entry contributes it |
| Colors.PaletteConcat | sapper/src/routes/app/storeLink.ts:34-35 | `flatMap` distributes over concatenation of the table |
| Colors.PaletteDropsBareBlackAndWhite | sapper/src/routes/app/storeLink.ts:36-39 | no palette colour is empty, and a white or black one can only come from a nested palette's `"400"` shade |
| Colors.Distance | sapper/src/routes/app/storeLink.ts:112-114 | the integer-weighted distance is zero exactly for equal colours |
| Colors.DistanceIsScaledWeightedDistance | sapper/src/routes/app/storeLink.ts:112-114 | the integer distance is exactly 10000 times the 0.3/0.59/0.11-weighted squared distance over the reals, so both order the palette alike |
| Colors.NearestIndex | sapper/src/routes/app/storeLink.ts:107-117 | the chosen index is in range and at minimal distance from the sample |
| Colors.ParsePalette | sapper/src/routes/app/storeLink.ts:108-109 | every palette colour parses or the result is None (the `!` that throws) |
| Colors.ParseColorsForImage | sapper/src/routes/app/storeLink.ts:97-123 | a match exists iff the sample succeeded, the palette is non-empty and every entry parses; the match keeps the sample and picks a palette colour at minimal distance |
| Web.QueryGet | sapper/src/routes/app/storeLink.ts:146 | `searchParams.get` finds a value iff the key occurs, and returns the first occurrence's value |
| Web.PagePool.constructor | sapper/src/routes/app/storeLink.ts:75-79 | a pool starts with no page checked out and a maximum of 5 |
| Web.PagePool.Acquire | sapper/src/routes/app/storeLink.ts:140 | a page is handed out iff fewer than the maximum are out, and the count grows by one exactly then |
| Web.PagePool.Destroy | sapper/src/routes/app/storeLink.ts:213 | giving a page back lowers the count by one |
| StoreLink.Truncate | sapper/src/routes/app/storeLink.ts:87-95 | null, empty and short (≤ maxLength−3) strings come back unchanged; longer ones become their first min(len, maxLength) characters plus `"..."`, at most maxLength+3 long |
| StoreLink.TruncateAppendsWithoutCutting | sapper/src/routes/app/storeLink.ts:91-93 | a string of length maxLength−2 to maxLength gets `"..."` appended with nothing cut |
| StoreLink.UnwrapRedirect | sapper/src/routes/app/storeLink.ts:145-158 | fails iff the outer URL does not parse; yields the `url` parameter exactly when all five YouTube conditions hold, otherwise the URL unchanged |
| StoreLink.FileExtension | sapper/src/routes/app/storeLink.ts:166-167 | `contentType && mime.getExtension(contentType)`: undefined without a header, `""` for an empty one, else the MIME lookup or null |
| StoreLink.ResolveFavicon | sapper/src/routes/app/storeLink.ts:177-181 | no icon gives null, an empty href stays `""`, otherwise the href resolved against the page URL, failing when it does not resolve |
| StoreLink.FaviconColors | sapper/src/routes/app/storeLink.ts:183-184 | colours are looked up only for a non-empty favicon, as `parseColorsForImage` on the palette and the sampled colour |
| StoreLink.Classify | sapper/src/routes/app/storeLink.ts:166-203 | the URL is the final page URL; a non-html page gives `"Untitled " + ext` and nulls; an html page gives the truncated title and description, the resolved favicon, and the colour and Tailwind colour of the favicon's colour match (both null without a match) |
| StoreLink.PageFieldsFor | sapper/src/routes/app/storeLink.ts:145-203 | an unparseable URL fails; otherwise the page at the unwrapped URL is loaded, a navigation throw fails, and a loaded page gives `Classify` of that page with the unwrapped URL as its base |
| StoreLink.FaviconResolvedAgainstTarget | sapper/src/routes/app/storeLink.ts:145-181 | for an unwrapped YouTube redirect, a non-empty icon href is resolved against the embedded target URL, and a resolve failure fails the fetch |
| StoreLink.GetPageFields | sapper/src/routes/app/storeLink.ts:125-215 | the result is the page-field derivation, or pool exhaustion; on every path the checked-out count returns to its value before the call |
| StoreLink.Record | sapper/src/routes/app/storeLink.ts:236-246 | the stored record carries the owner, the final URL, its hostname as domain, the title, the description, the favicon, both favicon colours and a null body |
| StoreLink.Add | sapper/src/routes/app/storeLink.ts:217-255 | a fetch failure changes nothing; an existing row with the owner and final URL, deleted or not, makes it a no-op; otherwise exactly one row is appended with the final URL's hostname as domain, or the insert fails with the table unchanged; the pool count is restored |
| LinkAdder.SliceTitle | src/lib/linkAdder.ts:63 | the title is the first min(len, 280) characters, with no ellipsis |
| LinkAdder.Description | src/lib/linkAdder.ts:64-70 | absent or empty gives null; over 280 characters gives the first 280 plus `"..."`; otherwise unchanged |
| LinkAdder.FromResponse | src/lib/linkAdder.ts:59-106 | every branch answered from the response alone reports the response's final URL; html gives the sliced title and the description rule; oEmbed XML gives its title or "Untitled XML file" and `""`; anything else gives `"Untitled "` plus the extension (or "null") and a null description |
| LinkAdder.FieldsFor | src/lib/linkAdder.ts:49-116 | a failed request fails; html with a non-empty title, oEmbed XML and other types are answered from the response; html with an empty title needs a page and reports the browser's URL, title and description |
| LinkAdder.HtmlWithTitle | src/lib/linkAdder.ts:75-77 | html with a title returns the final URL, the title cut to 280 and the description rule, whatever the pool state |
| LinkAdder.OembedFields | src/lib/linkAdder.ts:91-99 | oEmbed XML returns its cut title or `"Untitled XML file"`, with description `""` |
| LinkAdder.OtherTypeFields | src/lib/linkAdder.ts:100-105 | any other response, XML without `<oembed>` included, returns `"Untitled "` plus the extension or "null", with a null description |
| LinkAdder.GetPageFields | src/lib/linkAdder.ts:49-116 | the result is `FieldsFor`; the checked-out count is unchanged except that it stays one higher when navigation throws |
| LinkAdder.Add | src/lib/linkAdder.ts:118-145 | same dedup-then-insert cases as the current `add`, with a record of owner, URL, hostname, title and description only; the pool keeps one more page checked out exactly when the browser page leaks |
| Links.MaxId | src/lib/db.ts:16 | the largest id is at least every row's id |
| Links.NextId | src/lib/db.ts:16 | the next row id is positive and greater than every existing id |
| Links.Inserted | sapper/src/routes/app/storeLink.ts:247-250 | the insert appends one row with a fresh id, the current time, no deletion date and every field of the record; ids stay unique; the URL is then found |
| LinkTable.Table.Contains | sapper/src/routes/app/storeLink.ts:231-233 | the dedup query finds a row iff one has the owner and URL |
| LinkTable.Table.Insert | sapper/src/routes/app/storeLink.ts:247-254 | a successful insert makes the rows `Inserted`; a failed one reports "Error storing new link" and leaves them unchanged |
| LinkTable.Table.MoveToRecycleBin | sapper/src/routes/app/moveToRecycleBin.ts:5-20 | a falsy id changes nothing; otherwise the soft delete then the purge; the owner keeps at most one row in the bin; other owners' rows are untouched |
| LinkTable.Table.MoveFromRecycleBin | sapper/src/routes/app/moveFromRecycleBin.ts:5-15 | a falsy id changes nothing; otherwise the restore |
| LinkTable.Table.DeleteLink | sapper/src/routes/app/deleteLink.ts:5-13 | a falsy id changes nothing; otherwise the delete, after which no row has that owner and id |
| RecycleBin.SoftDeleted | sapper/src/routes/app/moveToRecycleBin.ts:11-13 | only `dateDeleted` changes, and only on the owner's row with that id that was not yet deleted |
| RecycleBin.Newest | sapper/src/routes/app/moveToRecycleBin.ts:16 | the kept row is one of the owner's bin rows with the latest deletion time; there is none iff the bin is empty |
| RecycleBin.KeepOnly | sapper/src/routes/app/moveToRecycleBin.ts:15-17 | a row survives the purge iff it is not in the owner's bin or is the kept row |
| RecycleBin.Restored | sapper/src/routes/app/moveFromRecycleBin.ts:9-12 | the matching row's `dateDeleted` becomes null whatever it was; nothing else changes and the row count stays |
| RecycleBin.WithoutLink | sapper/src/routes/app/deleteLink.ts:8-11 | a row stays iff it does not have both the owner and the id |
| RecycleBin.StatementsKeepIdsUnique | sapper/src/routes/app/moveToRecycleBin.ts:11-17 | none of the update and delete statements can make two rows share an id |
| RecycleBin.SoftDeletedKeepsOtherOwners | sapper/src/routes/app/moveToRecycleBin.ts:11-13 | the soft delete leaves every other owner's rows as they were |
| RecycleBin.KeepOnlyKeepsOtherOwners | sapper/src/routes/app/moveToRecycleBin.ts:15-17 | the purge leaves every other owner's rows as they were |
| RecycleBin.MoveToBinKeepsOtherOwners | sapper/src/routes/app/moveToRecycleBin.ts:11-17 | the whole route leaves every other owner's rows, in order, as they were |
| RecycleBin.PurgeKeepsActiveRows | sapper/src/routes/app/moveToRecycleBin.ts:15-17 | the purge never removes one of the owner's active rows |
| RecycleBin.PurgeLeavesNewestOnly | sapper/src/routes/app/moveToRecycleBin.ts:15-17 | afterwards the owner's bin holds exactly the row with the latest deletion time, or is empty |
| RecycleBin.PurgeIdempotent | sapper/src/routes/app/moveToRecycleBin.ts:15-17 | purging twice is purging once |
| RecycleBin.SoftDeletedUnchanged | sapper/src/routes/app/moveToRecycleBin.ts:11-13 | an already-deleted row keeps its original timestamp |
| RecycleBin.MoveToBinIdempotent | sapper/src/routes/app/moveToRecycleBin.ts:11-17 | repeating the route with the same id, at any later time, leaves the table as the first call left it |
| RecycleBin.LatestDeletionSurvives | sapper/src/routes/app/moveToRecycleBin.ts:11-17 | when every earlier deletion of the owner is older than now, soft-deleting an active row leaves exactly that row, stamped now, in the owner's bin |
| RecycleBin.RestoreIdempotent | sapper/src/routes/app/moveFromRecycleBin.ts:9-12 | restoring twice is restoring once |
| RecycleBin.DeleteMissingIsNoop | sapper/src/routes/app/deleteLink.ts:8-11 | deleting an id the owner does not have changes nothing |
| RecycleBin.DeleteIdempotent | sapper/src/routes/app/deleteLink.ts:8-11 | deleting twice is deleting once |
| RecycleBin.DeleteKeepsOthersInOrder | sapper/src/routes/app/deleteLink.ts:8-11 | every other owner's rows stay, in order |
| Grouping.CountsByDomain | sapper/src/routes/app.json.ts:9-18 | every scanned domain has a count, and it is the number of its rows |
| Grouping.FileLinks | sapper/src/routes/app.json.ts:23-30 | after the loop the Map's keys are the distinct group keys in first-occurrence order, and each key holds exactly its links in scan order |
| Grouping.GroupLinks | sapper/src/routes/app.json.ts:8-34 | the groups returned are the specified grouping of the scan |
| Grouping.GroupedIsPermutation | sapper/src/routes/app.json.ts:19-30 | the concatenation of all groups is a permutation of the scan |
| Grouping.GroupsDistinctAndNonEmpty | sapper/src/routes/app.json.ts:23-34 | group labels are pairwise distinct and no group is empty |
| Grouping.LinkPlacement | sapper/src/routes/app.json.ts:24-29 | a link is in a group iff the group carries its key; some group does; the key is its own domain iff that domain has at least `minLinkGroupSize` rows |
| Grouping.DefaultGroupSize | sapper/src/routes/app.json.ts:6-28 | with the default minimum of 2, a link whose domain occurs once is listed under the catch-all group, and a domain with two or more links gets its own group containing the link |
| Grouping.DomainGroupsAreWhole | sapper/src/routes/app.json.ts:9-29 | a group labelled by a domain holds exactly that domain's rows, so at least `minLinkGroupSize` of them |
| Grouping.DistinctInFirstOccurrenceOrder | sapper/src/routes/app.json.ts:23-29 | a Map's keys come in order of their first insertion |
| Grouping.GroupsInFirstOccurrenceOrder | sapper/src/routes/app.json.ts:19-34 | groups come in order of their label's first occurrence in the `dateSaved desc` scan |
| Grouping.GroupsKeepScanOrder | sapper/src/routes/app.json.ts:19-29 | each group is a subsequence of the scan |
| Migrations.SliceStart | src/lib/db.ts:27 | `slice(start)` begins at start when it is in range, at the end past it, and counts back from the end for a negative start |
| Migrations.Pending | src/lib/db.ts:26-27 | the pending migrations are the suffix after the stored version, and none when the version is at or past the end |
| Migrations.FirstFailure | src/lib/db.ts:27 | finds the first migration whose `exec` throws, if any |
| Migrations.Database.Migrate | src/lib/db.ts:25-29 | either every pending migration ran in order and the version is the list length, even when it was larger, or a migration threw and the transaction left database and version untouched |
| Migrations.MigrateTwice | src/lib/db.ts:25-29 | after a committed run, running again succeeds, executes nothing and keeps the version |
| Migrations.NegativeVersionRunsSuffix | src/lib/db.ts:26-27 | a negative stored version runs only the last `-version` migrations, or all of them |

## Left out

- StoreLink.Truncate: lengths and cuts count characters (code points),
  where JavaScript's `length` and `slice` count UTF-16 code units. Text
  outside the Basic Multilingual Plane is cut at different points, and a
  cut that splits a surrogate pair cannot be represented.
- LinkAdder.SliceTitle: the 280 limit counts characters, not UTF-16 code
  units, as for `StoreLink.Truncate`.
- LinkAdder.Description: the 280 limit counts characters, not UTF-16 code
  units, as for `StoreLink.Truncate`.

- The pool's page life cycle is not modelled: creating browser contexts,
  launching and closing the shared browser lazily, `drain`/`clear` at
  shutdown, the idle timeout and `min: 1`. The pool is only a counter of
  checked-out pages with a maximum of 5.
- StoreLink.GetPageFields: when all 5 pages are out, generic-pool makes the
  caller wait. The sequential model returns `PoolExhausted` instead.
- LinkAdder.GetPageFields: likewise `PoolExhausted` where the pool would
  wait.
- Concurrency is not modelled. The model runs one request at a time, so
  it leaves out the interleaving of the awaited phases: the page fetch and
  the wait for a pooled page. The dedup select and the insert run in one
  synchronous stretch of the database API, with no `await` between them.
  Within one process they therefore cannot interleave with another `add`.
  A race between them is possible only when several processes write to the
  same database file.
- Foreign calls are inputs, not models: Playwright navigation and DOM reads,
  axios, cheerio, `mime.getExtension`, colorthief, the WHATWG URL parser and
  `new URL(path, base)`. Each is a function-typed field of `Environment` or
  `Fetcher`, with `None` standing for a throw.
- Floating point is not modelled. The distance uses the exact integer
  weights 900/3481/121 (the float weights scaled by 10000) and ignores JS
  rounding.
- `JSON.stringify(faviconColor)` is not modelled. The stored colour is kept
  as an optional triple rather than its JSON text. For a link without a
  colour match, the source stores the four-character text `null` rather
  than SQL NULL; the model's `None` does not tell the two apart.
- SQL timestamps are replaced by an integer clock that never runs backwards.
  `datetime('now','localtime')` text and its ordering are not modelled.
- The SQL statements are modelled as functions on the row sequence. The row
  id is SQLite's max-plus-one rule. Which of several equally recent deleted
  rows the purge keeps is unspecified in SQL; the model keeps the first in
  table order.
- The insert into the older schema is an input. The `links` table of
  src/lib/db.ts has no `description` column, yet src/lib/linkAdder.ts
  inserts one, so whether that insert succeeds is a parameter of
  `LinkAdder.Add` and `StoreLink.Add`.
- The content of the migrations (the `users` and `links` DDL) is not
  modelled. Migrations are opaque strings. Whether `db.exec` throws is a
  parameter, and `user_version` is not limited to 32 bits.
- `GROUP_SIZE` is not modelled. When set it is a string compared with a
  number; the model takes `minLinkGroupSize` as an integer, and
  `Grouping.DefaultGroupSize` states the default of 2.
- HTTP glue and the fire-and-forget `post` handlers are not modelled:
  request parsing, `res.send`, the `apiRouter`/`appRouter` routes, error
  `details` and logging.
- Authentication, sessions, password hashing and API keys are not modelled.
- The browser extension, service worker, health checks and templates are not
  modelled.

=== FILE: colors.dfy ===
/** The favicon colour matcher of sapper/src/routes/app/storeLink.ts: hex
    parsing, the palette built from the design-system colour table, the
    weighted colour distance and the nearest-palette selection. */
module Colors {
  import opened Wrappers
  import opened Text

  datatype Rgb = Rgb(r: int, g: int, b: int)

  predicate InByteRange(c: Rgb)
  {
    0 <= c.r <= 255 && 0 <= c.g <= 255 && 0 <= c.b <= 255
  }

  // ---------------------------------------------------------------------------
  // hexToRgb
  // ---------------------------------------------------------------------------

  /** `[a-f\d]` under the `i` flag: ASCII digits and letters a-f in either case. */
  predicate IsHexDigit(c: char)
  {
    '0' <= c <= '9' || 'a' <= c <= 'f' || 'A' <= c <= 'F'
  }

  function HexDigitValue(c: char): (v: nat)
    requires IsHexDigit(c)
    ensures v < 16
  {
    if '0' <= c <= '9' then c as int - '0' as int
    else if 'a' <= c <= 'f' then c as int - 'a' as int + 10
    else c as int - 'A' as int + 10
  }

  predicate AllHex(s: string)
  {
    forall i :: 0 <= i < |s| ==> IsHexDigit(s[i])
  }

  /** What is left once the optional leading `#?` of both patterns has matched. */
  function StripHash(s: string): string
  {
    if |s| > 0 && s[0] == '#' then s[1..] else s
  }

  /** `/^#?([a-f\d])([a-f\d])([a-f\d])$/i` matches. */
  predicate IsShortForm(s: string)
  {
    |StripHash(s)| == 3 && AllHex(StripHash(s))
  }

  /** `/^#?([a-f\d]{2})([a-f\d]{2})([a-f\d]{2})$/i` matches. */
  predicate IsLongForm(s: string)
  {
    |StripHash(s)| == 6 && AllHex(StripHash(s))
  }

  /** The shorthand replacement: the whole match, `#` included, becomes rrggbb. */
  function ExpandShorthand(hex: string): string
  {
    if IsShortForm(hex) then
      var d := StripHash(hex);
      [d[0], d[0], d[1], d[1], d[2], d[2]]
    else hex
  }

  /** `parseInt(xy, 16)` of two hex digits. */
  function ParseHexByte(hi: char, lo: char): (v: int)
    requires IsHexDigit(hi) && IsHexDigit(lo)
    ensures 0 <= v <= 255
    ensures v / 16 == HexDigitValue(hi) && v % 16 == HexDigitValue(lo)
  {
    16 * HexDigitValue(hi) + HexDigitValue(lo)
  }

  function HexToRgb(hex: string): (rgb: Option<Rgb>)
    ensures rgb.Some? <==> IsShortForm(hex) || IsLongForm(hex)
    ensures rgb.Some? ==> InByteRange(rgb.value)
    ensures IsLongForm(hex) ==>
              var d := StripHash(hex);
              rgb == Some(Rgb(16 * HexDigitValue(d[0]) + HexDigitValue(d[1]),
                              16 * HexDigitValue(d[2]) + HexDigitValue(d[3]),
                              16 * HexDigitValue(d[4]) + HexDigitValue(d[5])))
    ensures IsShortForm(hex) ==>
              var d := StripHash(hex);
              rgb == Some(Rgb(17 * HexDigitValue(d[0]), 17 * HexDigitValue(d[1]), 17 * HexDigitValue(d[2])))
  {
    var h := ExpandShorthand(hex);
    if IsLongForm(h) then
      var d := StripHash(h);
      Some(Rgb(ParseHexByte(d[0], d[1]), ParseHexByte(d[2], d[3]), ParseHexByte(d[4], d[5])))
    else None
  }

  /** The lower-case hex digit of a value below 16. */
  function HexChar(n: nat): (c: char)
    requires n < 16
    ensures IsHexDigit(c) && HexDigitValue(c) == n
  {
    if n < 10 then ('0' as int + n) as char else ('a' as int + n - 10) as char
  }

  /** `#rrggbb` in lower case: the format the colour table uses. */
  function ToHex(c: Rgb): (hex: string)
    requires InByteRange(c)
    ensures |hex| == 7 && hex[0] == '#'
  {
    ['#', HexChar(c.r / 16), HexChar(c.r % 16), HexChar(c.g / 16), HexChar(c.g % 16),
     HexChar(c.b / 16), HexChar(c.b % 16)]
  }

  /** Every in-range colour printed as `#rrggbb` parses back to itself. */
  lemma HexToRgbToHex(c: Rgb)
    requires InByteRange(c)
    ensures HexToRgb(ToHex(c)) == Some(c)
  {
    var hex := ToHex(c);
    var d := StripHash(hex);
    assert d == hex[1..];
    assert AllHex(d);
    assert IsLongForm(hex);
  }

  lemma HexDigitCaseInsensitive(c: char)
    ensures IsHexDigit(LowerChar(c)) <==> IsHexDigit(c)
    ensures IsHexDigit(c) ==> HexDigitValue(LowerChar(c)) == HexDigitValue(c)
  {
  }

  lemma AllHexLower(s: string)
    ensures AllHex(Lower(s)) <==> AllHex(s)
  {
    forall i | 0 <= i < |s| ensures IsHexDigit(Lower(s)[i]) <==> IsHexDigit(s[i]) {
      HexDigitCaseInsensitive(s[i]);
    }
  }

  lemma StripHashLower(s: string)
    ensures StripHash(Lower(s)) == Lower(StripHash(s))
  {
    if |s| > 0 && s[0] == '#' {
      assert Lower(s)[0] == '#';
      assert Lower(s)[1..] == Lower(s[1..]);
    }
  }

  /** Lower-casing a six-digit form keeps every digit's value. */
  lemma LongFormLower(hex: string)
    requires IsLongForm(hex) && !IsShortForm(hex)
    ensures IsLongForm(Lower(hex)) && !IsShortForm(Lower(hex))
    ensures forall i :: 0 <= i < 6 ==>
              HexDigitValue(StripHash(Lower(hex))[i]) == HexDigitValue(StripHash(hex)[i])
  {
    var d := StripHash(hex);
    StripHashLower(hex);
    AllHexLower(d);
    forall i | 0 <= i < 6 ensures HexDigitValue(StripHash(Lower(hex))[i]) == HexDigitValue(d[i]) {
      HexDigitCaseInsensitive(d[i]);
    }
  }

  /** Lower-casing a three-digit form keeps every digit's value. */
  lemma ShortFormLower(hex: string)
    requires IsShortForm(hex)
    ensures IsShortForm(Lower(hex))
    ensures forall i :: 0 <= i < 3 ==>
              HexDigitValue(StripHash(Lower(hex))[i]) == HexDigitValue(StripHash(hex)[i])
  {
    var d := StripHash(hex);
    StripHashLower(hex);
    AllHexLower(d);
    forall i | 0 <= i < 3 ensures HexDigitValue(StripHash(Lower(hex))[i]) == HexDigitValue(d[i]) {
      HexDigitCaseInsensitive(d[i]);
    }
  }

  /** Both patterns carry the `i` flag, so the letter case of the input does
      not matter. */
  lemma HexToRgbCaseInsensitive(hex: string)
    ensures HexToRgb(Lower(hex)) == HexToRgb(hex)
  {
    var lo := Lower(hex);
    StripHashLower(hex);
    AllHexLower(StripHash(hex));
    if IsShortForm(hex) {
      ShortFormLower(hex);
    } else if IsLongForm(hex) {
      LongFormLower(hex);
    } else {
      assert !IsShortForm(lo) && !IsLongForm(lo);
    }
  }

  /** The `#` is optional: prefixing one to a string that does not already
      start with `#` does not change the result. */
  lemma HexToRgbOptionalHash(hex: string)
    requires |hex| == 0 || hex[0] != '#'
    ensures HexToRgb("#" + hex) == HexToRgb(hex)
  {
    assert StripHash("#" + hex) == hex;
  }

  /** A three-digit shorthand denotes the same colour as its doubled six-digit
      form, and the two are rejected together. */
  lemma HexToRgbShorthand(a: char, b: char, c: char)
    ensures HexToRgb([a, b, c]) == HexToRgb([a, a, b, b, c, c])
  {
    var long := [a, a, b, b, c, c];
    if IsHexDigit(a) && IsHexDigit(b) && IsHexDigit(c) {
      assert IsShortForm([a, b, c]);
      assert StripHash(long) == long;
      assert ExpandShorthand([a, b, c]) == long;
    } else if a == '#' {
      assert StripHash([a, b, c]) == [b, c];
      assert StripHash(long) == long[1..];
    } else {
      assert StripHash(long) == long;
      assert !IsHexDigit(a) ==> !IsHexDigit(long[0]);
      assert !IsHexDigit(b) ==> !IsHexDigit(long[2]);
      assert !IsHexDigit(c) ==> !IsHexDigit(long[4]);
    }
  }

  // ---------------------------------------------------------------------------
  // The palette (tailwindRgbColors50)
  // ---------------------------------------------------------------------------

  /** One value of the colour table: a bare colour string, or a nested palette
      of shades keyed "50", "100", ..., "900". */
  datatype ColorEntry = Bare(color: string) | Shades(shades: map<string, string>)

  /** The `flatMap` callback followed by `filter(Boolean)`, for one entry. */
  function PaletteValue(e: ColorEntry): (v: Option<string>)
    ensures v.Some? ==> v.value != ""
    ensures e.Bare? ==> (v.Some? <==> e.color != "" && Lower(e.color) != "#fff" && Lower(e.color) != "#000")
    ensures e.Bare? && v.Some? ==> v.value == e.color
    ensures e.Shades? ==> (v.Some? <==> "400" in e.shades && e.shades["400"] != "")
    ensures e.Shades? && v.Some? ==> v.value == e.shades["400"]
  {
    match e
    case Bare(c) =>
      if Lower(c) == "#fff" || Lower(c) == "#000" then None
      else if c == "" then None
      else Some(c)
    case Shades(m) =>
      if "400" in m && m["400"] != "" then Some(m["400"]) else None
  }

  function Palette(table: seq<ColorEntry>): (p: seq<string>)
    ensures |p| <= |table|
  {
    if table == [] then []
    else
      match PaletteValue(table[0])
      case Some(c) => [c] + Palette(table[1..])
      case None => Palette(table[1..])
  }

  /** A colour is in the palette exactly when some table entry contributes it. */
  lemma {:induction false} PaletteMembership(table: seq<ColorEntry>, c: string)
    ensures c in Palette(table) <==> exists i :: 0 <= i < |table| && PaletteValue(table[i]) == Some(c)
  {
    if table != [] {
      PaletteMembership(table[1..], c);
      if exists i :: 0 <= i < |table[1..]| && PaletteValue(table[1..][i]) == Some(c) {
        var i :| 0 <= i < |table[1..]| && PaletteValue(table[1..][i]) == Some(c);
        assert PaletteValue(table[i + 1]) == Some(c);
      }
      if exists i :: 0 <= i < |table| && PaletteValue(table[i]) == Some(c) {
        var i :| 0 <= i < |table| && PaletteValue(table[i]) == Some(c);
        if i > 0 {
          assert PaletteValue(table[1..][i - 1]) == Some(c);
        }
      }
    }
  }

  /** Table order is kept: the palette of a concatenation is the concatenation
      of the palettes. */
  lemma {:induction false} PaletteConcat(a: seq<ColorEntry>, b: seq<ColorEntry>)
    ensures Palette(a + b) == Palette(a) + Palette(b)
  {
    if a != [] {
      assert (a + b)[1..] == a[1..] + b;
      PaletteConcat(a[1..], b);
    } else {
      assert a + b == b;
    }
  }

  /** No palette colour is empty, and a colour that reads #fff or #000 once
      lower-cased can only have come from a nested palette's "400" shade. */
  lemma PaletteDropsBareBlackAndWhite(table: seq<ColorEntry>, c: string)
    requires c in Palette(table)
    ensures c != ""
    ensures Lower(c) == "#fff" || Lower(c) == "#000" ==>
              exists i :: 0 <= i < |table| && table[i].Shades? && "400" in table[i].shades && table[i].shades["400"] == c
  {
    PaletteMembership(table, c);
    var i :| 0 <= i < |table| && PaletteValue(table[i]) == Some(c);
  }

  // ---------------------------------------------------------------------------
  // Distance and nearest-colour selection (parseColorsForImage)
  // ---------------------------------------------------------------------------

  function Square(x: int): (s: nat)
    ensures s == 0 <==> x == 0
  {
    if x < 0 then (-x) * (-x) else x * x
  }

  /** The weighted squared distance (0.3dr)^2 + (0.59dg)^2 + (0.11db)^2, scaled
      by 10000 so that it is an exact integer with the same ordering. */
  function Distance(a: Rgb, b: Rgb): (d: nat)
    ensures d == 0 <==> a == b
  {
    900 * Square(a.r - b.r) + 3481 * Square(a.g - b.g) + 121 * Square(a.b - b.b)
  }

  /** The source's weights, over the reals. */
  ghost function WeightedDistance(a: Rgb, b: Rgb): real
  {
    var dr, dg, db := (a.r - b.r) as real, (a.g - b.g) as real, (a.b - b.b) as real;
    (0.3 * dr) * (0.3 * dr) + (0.59 * dg) * (0.59 * dg) + (0.11 * db) * (0.11 * db)
  }

  /** Distance is exactly 10000 times the source's weighted distance, so both
      order the palette the same way. */
  lemma DistanceIsScaledWeightedDistance(a: Rgb, b: Rgb)
    ensures Distance(a, b) as real == 10000.0 * WeightedDistance(a, b)
  {
    var dr, dg, db := a.r - b.r, a.g - b.g, a.b - b.b;
    assert Square(dr) == dr * dr && Square(dg) == dg * dg && Square(db) == db * db;
    assert (dr * dr) as real == (dr as real) * (dr as real);
    assert (dg * dg) as real == (dg as real) * (dg as real);
    assert (db * db) as real == (db as real) * (db as real);
  }

  /** An index of a palette colour closest to `target`. */
  function NearestIndex(colors: seq<Rgb>, target: Rgb): (k: nat)
    requires |colors| > 0
    ensures k < |colors|
    ensures forall j :: 0 <= j < |colors| ==> Distance(colors[k], target) <= Distance(colors[j], target)
  {
    if |colors| == 1 then 0
    else
      var k := NearestIndex(colors[1..], target);
      if Distance(colors[0], target) <= Distance(colors[1 + k], target) then 0 else 1 + k
  }

  /** The map step: every palette entry parsed by hexToRgb, or None when one
      of them does not parse (where the source's `!` lets a TypeError through). */
  function ParsePalette(palette: seq<string>): (rgbs: Option<seq<Rgb>>)
    ensures rgbs.Some? <==> forall i :: 0 <= i < |palette| ==> HexToRgb(palette[i]).Some?
    ensures rgbs.Some? ==> |rgbs.value| == |palette|
    ensures rgbs.Some? ==> forall i :: 0 <= i < |palette| ==> HexToRgb(palette[i]) == Some(rgbs.value[i])
  {
    if palette == [] then Some([])
    else
      match (HexToRgb(palette[0]), ParsePalette(palette[1..]))
      case (Some(c), Some(rest)) => Some([c] + rest)
      case _ => None
  }

  datatype ColorMatch = ColorMatch(faviconColor: Rgb, faviconTailwindColor: string)

  /** `parseColorsForImage`, given the sampler's answer for the image (None when
      colorthief throws). Every failure turns into None. */
  function ParseColorsForImage(palette: seq<string>, sample: Option<Rgb>): (m: Option<ColorMatch>)
    ensures m.Some? <==> sample.Some? && |palette| > 0 && forall i :: 0 <= i < |palette| ==> HexToRgb(palette[i]).Some?
    ensures m.Some? ==> m.value.faviconColor == sample.value && m.value.faviconTailwindColor in palette
    ensures m.Some? ==> forall i :: 0 <= i < |palette| ==>
              Distance(HexToRgb(m.value.faviconTailwindColor).value, sample.value) <= Distance(HexToRgb(palette[i]).value, sample.value)
  {
    match (sample, ParsePalette(palette))
    case (Some(color), Some(rgbs)) =>
      if |rgbs| == 0 then None
      else
        var k := NearestIndex(rgbs, color);
        Some(ColorMatch(color, palette[k]))
    case _ => None
  }

}

=== FILE: grouping.dfy ===
/** The list view's domain grouping (sapper/src/routes/app.json.ts `get`).
    Its input is what `select * from links where email=? order by dateSaved
    desc` returns: one owner's rows, newest first. The per-domain counts of
    the `group by domain` query are computed over the same rows. */
module Grouping {
  import opened Links

  const CatchAll: string := "From around the Web"

  /** `minLinkGroupSize` when the GROUP_SIZE environment variable is unset. */
  const DefaultMinLinkGroupSize: int := 2

  datatype LinkGroup = LinkGroup(domain: string, links: seq<Link>)

  // ---------------------------------------------------------------------------
  // Specification
  // ---------------------------------------------------------------------------

  /** The rows with domain `d`, in scan order. */
  function SameDomain(rows: seq<Link>, d: string): seq<Link>
  {
    if rows == [] then []
    else
      var rest := SameDomain(rows[..|rows| - 1], d);
      var last := rows[|rows| - 1];
      if last.domain == d then rest + [last] else rest
  }

  function Domains(rows: seq<Link>): set<string>
  {
    set l | l in rows :: l.domain
  }

  /** `select domain, count(domain) ... group by domain`, as a map. */
  function CountsByDomain(rows: seq<Link>): (counts: map<string, nat>)
    ensures forall l :: l in rows ==> l.domain in counts
    ensures forall d :: d in counts ==> counts[d] == |SameDomain(rows, d)|
  {
    map d | d in Domains(rows) :: |SameDomain(rows, d)|
  }

  /** The key a link is filed under. */
  function Label(l: Link, counts: map<string, nat>, minSize: int): string
  {
    if l.domain in counts && counts[l.domain] >= minSize then l.domain else CatchAll
  }

  function Labels(rows: seq<Link>, counts: map<string, nat>, minSize: int): seq<string>
  {
    if rows == [] then []
    else Labels(rows[..|rows| - 1], counts, minSize) + [Label(rows[|rows| - 1], counts, minSize)]
  }

  /** The distinct elements of `xs` in order of first occurrence: the key
      order of a JavaScript Map filled from `xs`. */
  function Distinct(xs: seq<string>): seq<string>
  {
    if xs == [] then []
    else
      var rest := Distinct(xs[..|xs| - 1]);
      if xs[|xs| - 1] in xs[..|xs| - 1] then rest else rest + [xs[|xs| - 1]]
  }

  /** The links filed under `d`, in scan order. */
  function Members(rows: seq<Link>, counts: map<string, nat>, minSize: int, d: string): seq<Link>
  {
    if rows == [] then []
    else
      var rest := Members(rows[..|rows| - 1], counts, minSize, d);
      var last := rows[|rows| - 1];
      if Label(last, counts, minSize) == d then rest + [last] else rest
  }

  /** One group per key, each holding the key's members. */
  function GroupsOf(keys: seq<string>, rows: seq<Link>, counts: map<string, nat>, minSize: int): (gs: seq<LinkGroup>)
    ensures |gs| == |keys|
    ensures forall k :: 0 <= k < |keys| ==> gs[k] == LinkGroup(keys[k], Members(rows, counts, minSize, keys[k]))
  {
    if keys == [] then []
    else
      var last := keys[|keys| - 1];
      GroupsOf(keys[..|keys| - 1], rows, counts, minSize) + [LinkGroup(last, Members(rows, counts, minSize, last))]
  }

  lemma GroupsOfAppend(keys: seq<string>, key: string, rows: seq<Link>, counts: map<string, nat>, minSize: int)
    ensures GroupsOf(keys + [key], rows, counts, minSize) ==
              GroupsOf(keys, rows, counts, minSize) + [LinkGroup(key, Members(rows, counts, minSize, key))]
  {
    assert (keys + [key])[..|keys|] == keys;
  }

  function GroupedBy(rows: seq<Link>, counts: map<string, nat>, minSize: int): seq<LinkGroup>
  {
    GroupsOf(Distinct(Labels(rows, counts, minSize)), rows, counts, minSize)
  }

  /** The groups `get` responds with. */
  function Grouped(scan: seq<Link>, minSize: int): seq<LinkGroup>
  {
    GroupedBy(scan, CountsByDomain(scan), minSize)
  }

  /** All groups' links, one group after the other. */
  function Flatten(groups: seq<LinkGroup>): seq<Link>
  {
    if groups == [] then [] else Flatten(groups[..|groups| - 1]) + groups[|groups| - 1].links
  }

  /** The state of `get`'s Map after filing `seen`: its keys in insertion
      order, and each key's links. */
  ghost predicate Filed(seen: seq<Link>, counts: map<string, nat>, minSize: int,
                        keys: seq<string>, groups: map<string, seq<Link>>)
  {
    && keys == Distinct(Labels(seen, counts, minSize))
    && (forall d :: d in groups <==> d in keys)
    && (forall d :: d in groups ==> groups[d] == Members(seen, counts, minSize, d))
  }

  /** Reading the Map's entries in key order gives the specified groups. */
  lemma MapEntriesAreGroups(scan: seq<Link>, counts: map<string, nat>, minSize: int,
                            keys: seq<string>, groups: map<string, seq<Link>>, entries: seq<LinkGroup>)
    requires Filed(scan, counts, minSize, keys, groups)
    requires |entries| == |keys|
    requires forall k :: 0 <= k < |keys| ==> keys[k] in groups && entries[k] == LinkGroup(keys[k], groups[keys[k]])
    ensures entries == GroupedBy(scan, counts, minSize)
  {
  }

  /** Filing one more link keeps the Map in step with the specification. */
  lemma FileOne(seen: seq<Link>, x: Link, counts: map<string, nat>, minSize: int,
                keys: seq<string>, groups: map<string, seq<Link>>,
                keys': seq<string>, groups': map<string, seq<Link>>)
    requires Filed(seen, counts, minSize, keys, groups)
    requires var key := Label(x, counts, minSize);
             && keys' == (if key in groups then keys else keys + [key])
             && groups' == groups[key := (if key in groups then groups[key] else []) + [x]]
    ensures Filed(seen + [x], counts, minSize, keys', groups')
  {
    var key := Label(x, counts, minSize);
    var labels := Labels(seen, counts, minSize);
    LabelsAppend(seen, x, counts, minSize);
    DistinctAppend(labels, key);
    DistinctMembership(labels, key);
    assert keys' == Distinct(Labels(seen + [x], counts, minSize));
    forall d | d in groups' ensures groups'[d] == Members(seen + [x], counts, minSize, d) {
      MembersAppend(seen, x, counts, minSize, d);
      if d == key && key !in groups {
        MembersOfAbsentKey(seen, counts, minSize, key);
      }
    }
  }

  // ---------------------------------------------------------------------------
  // The loop of `get`
  // ---------------------------------------------------------------------------

  /** The `forEach` of `get`: append each link to the group of its key, a
      new key going to the end of the Map. */
  method FileLinks(scan: seq<Link>, countsByDomain: map<string, nat>, minLinkGroupSize: int)
    returns (keys: seq<string>, linkGroups: map<string, seq<Link>>)
    ensures Filed(scan, countsByDomain, minLinkGroupSize, keys, linkGroups)
  {
    keys, linkGroups := [], map[];
    for i := 0 to |scan|
      invariant Filed(scan[..i], countsByDomain, minLinkGroupSize, keys, linkGroups)
    {
      var link := scan[i];
      var domain := if link.domain in countsByDomain && countsByDomain[link.domain] >= minLinkGroupSize
                    then link.domain else CatchAll;
      ghost var keys0, linkGroups0 := keys, linkGroups;
      if domain !in linkGroups {
        keys := keys + [domain];
      }
      var existing := if domain in linkGroups then linkGroups[domain] else [];
      linkGroups := linkGroups[domain := existing + [link]];
      FileOne(scan[..i], link, countsByDomain, minLinkGroupSize, keys0, linkGroups0, keys, linkGroups);
      assert scan[..i + 1] == scan[..i] + [link];
    }
    assert scan[..|scan|] == scan;
  }

  /** `get`: count the links per domain, file them, then read the Map's
      entries in key order. */
  method GroupLinks(scan: seq<Link>, minLinkGroupSize: int) returns (groups: seq<LinkGroup>)
    ensures groups == Grouped(scan, minLinkGroupSize)
  {
    var countsByDomain := CountsByDomain(scan);
    var keys, linkGroups := FileLinks(scan, countsByDomain, minLinkGroupSize);
    groups := [];
    for j := 0 to |keys|
      invariant |groups| == j
      invariant forall k :: 0 <= k < j ==> groups[k] == LinkGroup(keys[k], linkGroups[keys[k]])
    {
      groups := groups + [LinkGroup(keys[j], linkGroups[keys[j]])];
    }
    MapEntriesAreGroups(scan, countsByDomain, minLinkGroupSize, keys, linkGroups, groups);
  }

  // ---------------------------------------------------------------------------
  // Lemmas about the specification
  // ---------------------------------------------------------------------------

  lemma {:induction false} DistinctMembership(xs: seq<string>, y: string)
    ensures y in Distinct(xs) <==> y in xs
  {
    if xs != [] {
      var init := xs[..|xs| - 1];
      DistinctMembership(init, y);
      assert xs == init + [xs[|xs| - 1]];
      if xs[|xs| - 1] in init {
        assert y == xs[|xs| - 1] ==> y in init;
      }
    }
  }

  lemma {:induction false} DistinctHasNoDuplicates(xs: seq<string>)
    ensures forall i, j :: 0 <= i < j < |Distinct(xs)| ==> Distinct(xs)[i] != Distinct(xs)[j]
  {
    if xs != [] {
      var init := xs[..|xs| - 1];
      DistinctHasNoDuplicates(init);
      DistinctMembership(init, xs[|xs| - 1]);
    }
  }

  lemma {:induction false} LabelsIndex(rows: seq<Link>, counts: map<string, nat>, minSize: int)
    ensures |Labels(rows, counts, minSize)| == |rows|
    ensures forall i :: 0 <= i < |rows| ==> Labels(rows, counts, minSize)[i] == Label(rows[i], counts, minSize)
  {
    if rows != [] {
      LabelsIndex(rows[..|rows| - 1], counts, minSize);
    }
  }

  /** A link is among the members of `d` exactly when it is in the rows and
      filed under `d`. */
  lemma {:induction false} MembersMembership(rows: seq<Link>, counts: map<string, nat>, minSize: int, d: string, x: Link)
    ensures x in Members(rows, counts, minSize, d) <==> x in rows && Label(x, counts, minSize) == d
  {
    if rows != [] {
      var init := rows[..|rows| - 1];
      MembersMembership(init, counts, minSize, d, x);
      assert rows == init + [rows[|rows| - 1]];
    }
  }

  lemma {:induction false} SameDomainMembership(rows: seq<Link>, d: string, x: Link)
    ensures x in SameDomain(rows, d) <==> x in rows && x.domain == d
  {
    if rows != [] {
      var init := rows[..|rows| - 1];
      SameDomainMembership(init, d, x);
      assert rows == init + [rows[|rows| - 1]];
    }
  }

  lemma LabelsAppend(rows: seq<Link>, x: Link, counts: map<string, nat>, minSize: int)
    ensures Labels(rows + [x], counts, minSize) == Labels(rows, counts, minSize) + [Label(x, counts, minSize)]
  {
    assert (rows + [x])[..|rows|] == rows;
  }

  lemma DistinctAppend(xs: seq<string>, y: string)
    ensures Distinct(xs + [y]) == if y in xs then Distinct(xs) else Distinct(xs) + [y]
  {
    assert (xs + [y])[..|xs|] == xs;
  }

  lemma MembersAppend(rows: seq<Link>, x: Link, counts: map<string, nat>, minSize: int, d: string)
    ensures Members(rows + [x], counts, minSize, d) ==
              Members(rows, counts, minSize, d) + if Label(x, counts, minSize) == d then [x] else []
  {
    assert (rows + [x])[..|rows|] == rows;
  }

  lemma {:induction false} MembersOfAbsentKey(rows: seq<Link>, counts: map<string, nat>, minSize: int, d: string)
    requires d !in Labels(rows, counts, minSize)
    ensures Members(rows, counts, minSize, d) == []
  {
    if rows != [] {
      var init := rows[..|rows| - 1];
      assert Labels(rows, counts, minSize) == Labels(init, counts, minSize) + [Label(rows[|rows| - 1], counts, minSize)];
      MembersOfAbsentKey(init, counts, minSize, d);
    }
  }


  lemma FlattenAppend(groups: seq<LinkGroup>, g: LinkGroup)
    ensures Flatten(groups + [g]) == Flatten(groups) + g.links
  {
    assert (groups + [g])[..|groups|] == groups;
  }

  /** Adding one link to one group adds exactly that link to the flattening. */
  lemma {:induction false} FlattenGrowOne(gs: seq<LinkGroup>, hs: seq<LinkGroup>, j: nat, x: Link)
    requires |gs| == |hs| && j < |gs|
    requires forall k :: 0 <= k < |gs| && k != j ==> hs[k].links == gs[k].links
    requires hs[j].links == gs[j].links + [x]
    ensures multiset(Flatten(hs)) == multiset(Flatten(gs)) + multiset{x}
  {
    var n := |gs| - 1;
    var gi, hi := gs[..n], hs[..n];
    assert Flatten(gs) == Flatten(gi) + gs[n].links;
    assert Flatten(hs) == Flatten(hi) + hs[n].links;
    if j == n {
      forall k | 0 <= k < n ensures hi[k].links == gi[k].links {
        assert hi[k] == hs[k] && gi[k] == gs[k];
      }
      FlattenSameLinks(gi, hi);
      assert Flatten(hs) == Flatten(gi) + gs[n].links + [x];
    } else {
      forall k | 0 <= k < n && k != j ensures hi[k].links == gi[k].links {
        assert hi[k] == hs[k] && gi[k] == gs[k];
      }
      assert hi[j] == hs[j] && gi[j] == gs[j];
      FlattenGrowOne(gi, hi, j, x);
      assert hs[n].links == gs[n].links;
    }
  }

  lemma {:induction false} FlattenSameLinks(gs: seq<LinkGroup>, hs: seq<LinkGroup>)
    requires |gs| == |hs|
    requires forall k :: 0 <= k < |gs| ==> hs[k].links == gs[k].links
    ensures Flatten(hs) == Flatten(gs)
  {
    if gs != [] {
      FlattenSameLinks(gs[..|gs| - 1], hs[..|hs| - 1]);
    }
  }

  /** Filing a link under a key that already has a group grows that group. */
  lemma GrowExisting(init: seq<Link>, x: Link, counts: map<string, nat>, minSize: int)
    requires Label(x, counts, minSize) in Labels(init, counts, minSize)
    ensures multiset(Flatten(GroupedBy(init + [x], counts, minSize))) ==
              multiset(Flatten(GroupedBy(init, counts, minSize))) + multiset{x}
  {
    var lx := Label(x, counts, minSize);
    var labels := Labels(init, counts, minSize);
    var keys := Distinct(labels);
    var before, after := GroupedBy(init, counts, minSize), GroupedBy(init + [x], counts, minSize);
    LabelsAppend(init, x, counts, minSize);
    DistinctAppend(labels, lx);
    DistinctMembership(labels, lx);
    DistinctHasNoDuplicates(labels);
    var j :| 0 <= j < |keys| && keys[j] == lx;
    forall k | 0 <= k < |keys| ensures after[k].links == before[k].links + if k == j then [x] else [] {
      MembersAppend(init, x, counts, minSize, keys[k]);
    }
    FlattenGrowOne(before, after, j, x);
  }

  /** Keys whose members agree in two row sequences give the same groups. */
  lemma {:induction false} GroupsOfSameMembers(keys: seq<string>, rows: seq<Link>, rows': seq<Link>,
                                               counts: map<string, nat>, minSize: int)
    requires forall k :: 0 <= k < |keys| ==> Members(rows, counts, minSize, keys[k]) == Members(rows', counts, minSize, keys[k])
    ensures GroupsOf(keys, rows, counts, minSize) == GroupsOf(keys, rows', counts, minSize)
  {
    if keys != [] {
      var init := keys[..|keys| - 1];
      forall k | 0 <= k < |init| ensures Members(rows, counts, minSize, init[k]) == Members(rows', counts, minSize, init[k]) {
        assert init[k] == keys[k];
      }
      GroupsOfSameMembers(init, rows, rows', counts, minSize);
    }
  }

  /** Filing a link under a new key adds a one-link group at the end. */
  lemma GrowNew(init: seq<Link>, x: Link, counts: map<string, nat>, minSize: int)
    requires Label(x, counts, minSize) !in Labels(init, counts, minSize)
    ensures multiset(Flatten(GroupedBy(init + [x], counts, minSize))) ==
              multiset(Flatten(GroupedBy(init, counts, minSize))) + multiset{x}
  {
    var lx := Label(x, counts, minSize);
    var labels := Labels(init, counts, minSize);
    var keys := Distinct(labels);
    var rows := init + [x];
    LabelsAppend(init, x, counts, minSize);
    DistinctAppend(labels, lx);
    assert Distinct(Labels(rows, counts, minSize)) == keys + [lx];
    GroupsOfAppend(keys, lx, rows, counts, minSize);
    MembersOfAbsentKey(init, counts, minSize, lx);
    MembersAppend(init, x, counts, minSize, lx);
    forall k | 0 <= k < |keys| ensures Members(rows, counts, minSize, keys[k]) == Members(init, counts, minSize, keys[k]) {
      DistinctMembership(labels, keys[k]);
      MembersAppend(init, x, counts, minSize, keys[k]);
    }
    GroupsOfSameMembers(keys, rows, init, counts, minSize);
    FlattenAppend(GroupedBy(init, counts, minSize), LinkGroup(lx, [x]));
  }

  lemma {:induction false} GroupedByIsPermutation(rows: seq<Link>, counts: map<string, nat>, minSize: int)
    ensures multiset(Flatten(GroupedBy(rows, counts, minSize))) == multiset(rows)
  {
    if rows != [] {
      var init, x := rows[..|rows| - 1], rows[|rows| - 1];
      assert rows == init + [x];
      GroupedByIsPermutation(init, counts, minSize);
      if Label(x, counts, minSize) in Labels(init, counts, minSize) {
        GrowExisting(init, x, counts, minSize);
      } else {
        GrowNew(init, x, counts, minSize);
      }
    }
  }

  /** Every link of the scan is in the concatenation of the groups, exactly
      as often as in the scan: the groups partition the scan. */
  lemma GroupedIsPermutation(scan: seq<Link>, minSize: int)
    ensures multiset(Flatten(Grouped(scan, minSize))) == multiset(scan)
  {
    GroupedByIsPermutation(scan, CountsByDomain(scan), minSize);
  }

  /** Group labels are distinct and no group is empty. */
  lemma GroupsDistinctAndNonEmpty(scan: seq<Link>, minSize: int)
    ensures forall i, j :: 0 <= i < j < |Grouped(scan, minSize)| ==>
              Grouped(scan, minSize)[i].domain != Grouped(scan, minSize)[j].domain
    ensures forall g :: g in Grouped(scan, minSize) ==> g.links != []
  {
    var counts := CountsByDomain(scan);
    var labels := Labels(scan, counts, minSize);
    LabelsIndex(scan, counts, minSize);
    DistinctHasNoDuplicates(labels);
    forall g | g in Grouped(scan, minSize) ensures g.links != [] {
      DistinctMembership(labels, g.domain);
      var i :| 0 <= i < |scan| && labels[i] == g.domain;
      MembersMembership(scan, counts, minSize, g.domain, scan[i]);
    }
  }

  /** A link sits in a group exactly when the group carries its key, some
      group carries its key, and that key is its own domain exactly when the
      domain has at least `minSize` links. */
  lemma LinkPlacement(scan: seq<Link>, minSize: int, x: Link)
    requires x in scan
    ensures var gs, key := Grouped(scan, minSize), Label(x, CountsByDomain(scan), minSize);
            (forall k :: 0 <= k < |gs| ==> (x in gs[k].links <==> gs[k].domain == key)) &&
            (exists k :: 0 <= k < |gs| && gs[k].domain == key)
    ensures x.domain != CatchAll ==>
              (Label(x, CountsByDomain(scan), minSize) == x.domain <==> |SameDomain(scan, x.domain)| >= minSize)
  {
    var counts := CountsByDomain(scan);
    var labels := Labels(scan, counts, minSize);
    LabelsIndex(scan, counts, minSize);
    var gs, key := Grouped(scan, minSize), Label(x, counts, minSize);
    var keys := Distinct(labels);
    assert |gs| == |keys|;
    var i :| 0 <= i < |scan| && scan[i] == x;
    assert labels[i] == key;
    DistinctMembership(labels, key);
    var k :| 0 <= k < |keys| && keys[k] == key;
    assert gs[k].domain == key;
    forall k | 0 <= k < |gs| ensures x in gs[k].links <==> gs[k].domain == key {
      MembersMembership(scan, counts, minSize, keys[k], x);
    }
  }

  lemma {:induction false} MembersOfDomainKey(rows: seq<Link>, counts: map<string, nat>, minSize: int, d: string)
    requires d != CatchAll && d in counts && counts[d] >= minSize
    ensures Members(rows, counts, minSize, d) == SameDomain(rows, d)
  {
    if rows != [] {
      MembersOfDomainKey(rows[..|rows| - 1], counts, minSize, d);
    }
  }

  /** With the default minimum of 2, a link whose domain occurs only once in
      the scan is listed under the catch-all group, and two links of one
      domain get a group of their own. */
  lemma DefaultGroupSize(scan: seq<Link>, x: Link)
    requires x in scan && x.domain != CatchAll
    ensures var gs := Grouped(scan, DefaultMinLinkGroupSize);
            |SameDomain(scan, x.domain)| == 1 ==>
              exists k :: 0 <= k < |gs| && gs[k].domain == CatchAll && x in gs[k].links
    ensures var gs := Grouped(scan, DefaultMinLinkGroupSize);
            |SameDomain(scan, x.domain)| >= 2 ==>
              exists k :: 0 <= k < |gs| && gs[k].domain == x.domain && x in gs[k].links
  {
    LinkPlacement(scan, DefaultMinLinkGroupSize, x);
    var key := Label(x, CountsByDomain(scan), DefaultMinLinkGroupSize);
    assert key == x.domain || key == CatchAll;
  }

  /** A group labelled by a domain holds every link of that domain and no
      other, so it has at least `minSize` links. */
  lemma DomainGroupsAreWhole(scan: seq<Link>, minSize: int)
    ensures forall g :: g in Grouped(scan, minSize) && g.domain != CatchAll ==>
              g.links == SameDomain(scan, g.domain) && |g.links| >= minSize
  {
    var counts := CountsByDomain(scan);
    var labels := Labels(scan, counts, minSize);
    LabelsIndex(scan, counts, minSize);
    forall g | g in Grouped(scan, minSize) && g.domain != CatchAll
      ensures g.links == SameDomain(scan, g.domain) && |g.links| >= minSize
    {
      DistinctMembership(labels, g.domain);
      var i :| 0 <= i < |scan| && labels[i] == g.domain;
      assert g.domain in counts && counts[g.domain] >= minSize;
      MembersOfDomainKey(scan, counts, minSize, g.domain);
    }
  }

  /** Index of the first occurrence of `y` in `xs`. */
  function FirstIndex(xs: seq<string>, y: string): (i: nat)
    requires y in xs
    ensures i < |xs| && xs[i] == y && y !in xs[..i]
  {
    if xs[0] == y then 0 else 1 + FirstIndex(xs[1..], y)
  }

  lemma {:induction false} FirstIndexOfPrefix(xs: seq<string>, z: string, y: string)
    requires y in xs
    ensures FirstIndex(xs + [z], y) == FirstIndex(xs, y)
  {
    if xs[0] != y {
      assert (xs + [z])[1..] == xs[1..] + [z];
      FirstIndexOfPrefix(xs[1..], z, y);
    }
  }

  lemma FirstIndexOfNew(xs: seq<string>, z: string)
    requires z !in xs
    ensures FirstIndex(xs + [z], z) == |xs|
  {
    assert (xs + [z])[..|xs|] == xs;
  }

  lemma {:induction false} DistinctInFirstOccurrenceOrder(xs: seq<string>)
    ensures forall i, j :: 0 <= i < j < |Distinct(xs)| ==>
              Distinct(xs)[i] in xs && Distinct(xs)[j] in xs &&
              FirstIndex(xs, Distinct(xs)[i]) < FirstIndex(xs, Distinct(xs)[j])
  {
    if xs != [] {
      var init, z := xs[..|xs| - 1], xs[|xs| - 1];
      assert xs == init + [z];
      DistinctInFirstOccurrenceOrder(init);
      var d := Distinct(init);
      forall y | y in d ensures y in init && FirstIndex(xs, y) == FirstIndex(init, y) {
        DistinctMembership(init, y);
        FirstIndexOfPrefix(init, z, y);
      }
      if z in init {
        assert Distinct(xs) == d;
      } else {
        assert Distinct(xs) == d + [z];
        FirstIndexOfNew(init, z);
        forall i | 0 <= i < |d| ensures d[i] in xs && FirstIndex(xs, d[i]) < FirstIndex(xs, z) {
          assert d[i] in d;
        }
      }
    } else {
      assert Distinct(xs) == [];
    }
  }

  /** Groups come in the order in which their keys first occur in the scan. */
  lemma GroupsInFirstOccurrenceOrder(scan: seq<Link>, minSize: int)
    ensures var labels := Labels(scan, CountsByDomain(scan), minSize);
            forall i, j :: 0 <= i < j < |Grouped(scan, minSize)| ==>
              Grouped(scan, minSize)[i].domain in labels && Grouped(scan, minSize)[j].domain in labels &&
              FirstIndex(labels, Grouped(scan, minSize)[i].domain) < FirstIndex(labels, Grouped(scan, minSize)[j].domain)
  {
    DistinctInFirstOccurrenceOrder(Labels(scan, CountsByDomain(scan), minSize));
  }

  /** `a` is `b` with some elements left out. */
  ghost predicate IsSubsequence(a: seq<Link>, b: seq<Link>)
    decreases |b|
  {
    if b == [] then a == []
    else
      (a != [] && a[|a| - 1] == b[|b| - 1] && IsSubsequence(a[..|a| - 1], b[..|b| - 1]))
      || IsSubsequence(a, b[..|b| - 1])
  }

  lemma {:induction false} MembersIsSubsequence(rows: seq<Link>, counts: map<string, nat>, minSize: int, d: string)
    ensures IsSubsequence(Members(rows, counts, minSize, d), rows)
  {
    if rows != [] {
      var init := rows[..|rows| - 1];
      MembersIsSubsequence(init, counts, minSize, d);
      var m := Members(rows, counts, minSize, d);
      if Label(rows[|rows| - 1], counts, minSize) == d {
        assert m[..|m| - 1] == Members(init, counts, minSize, d);
      }
    }
  }

  /** Each group lists its links in scan order, i.e. newest first. */
  lemma GroupsKeepScanOrder(scan: seq<Link>, minSize: int)
    ensures forall g :: g in Grouped(scan, minSize) ==> IsSubsequence(g.links, scan)
  {
    forall g | g in Grouped(scan, minSize) ensures IsSubsequence(g.links, scan) {
      MembersIsSubsequence(scan, CountsByDomain(scan), minSize, g.domain);
    }
  }
}

=== FILE: link_adder.dfy ===
/** The older capture pipeline of src/lib/linkAdder.ts: an HTTP fetch whose
    HTML is read without a browser, a browser fallback for pages whose
    <title> is empty, a branch for oEmbed XML, and the same dedup-then-insert
    `add`. The HTTP client, the HTML reader, mime and the browser are the
    fields of a `Fetcher` value. */
module LinkAdder {
  import opened Wrappers
  import opened Text
  import opened Web
  import opened Links
  import opened LinkTable

  const MaxFieldLength: nat := 280

  /** What axios and cheerio report for one GET: the final URL after
      redirects, the content-type header, the body, the text of `title` and
      the `content` of `meta[name="description"]`. */
  datatype HttpResponse = HttpResponse(
    finalUrl: string,
    contentType: Option<string>,
    body: string,
    titleText: string,
    metaDescription: Option<string>)

  datatype Fetcher = Fetcher(
    httpGet: string -> Option<HttpResponse>,   // axios.get; None when it throws
    getExtension: string -> Option<string>,    // mime.getExtension
    navigate: string -> Option<LoadedPage>,    // page.goto and the reads after it; None when it throws
    parseUrl: string -> Option<Url>)           // new URL(s); None when it throws

  /** The `[url, title, description]` triple. */
  datatype Fields = Fields(url: string, title: string, description: Option<string>)

  /** `mime.getExtension(header)`; a missing header has no extension. */
  function Extension(contentType: Option<string>, getExtension: string -> Option<string>): Option<string>
  {
    match contentType
    case None => None
    case Some(ct) => getExtension(ct)
  }

  /** `text.slice(0, maxFieldLength)`: no ellipsis. */
  function SliceTitle(text: string): (t: string)
    ensures |t| == Min(|text|, MaxFieldLength)
    ensures t == text[..|t|]
  {
    text[..Min(|text|, MaxFieldLength)]
  }

  /** The description rule: null when absent or empty; longer than 280
      characters, the first 280 followed by "..."; otherwise as it is. */
  function Description(raw: Option<string>): (d: Option<string>)
    ensures raw.None? || raw == Some("") ==> d.None?
    ensures raw.Some? && |raw.value| > MaxFieldLength ==> d == Some(raw.value[..MaxFieldLength] + "...")
    ensures raw.Some? && 0 < |raw.value| <= MaxFieldLength ==> d == raw
    ensures d.Some? ==> |d.value| <= MaxFieldLength + 3
  {
    match raw
    case None => None
    case Some(text) =>
      if text == "" then None
      else if |text| > MaxFieldLength then Some(text[..MaxFieldLength] + "...")
      else Some(text)
  }

  /** An HTML response whose `<title>` is empty: the browser is needed. */
  predicate NeedsBrowser(url: string, fetcher: Fetcher)
  {
    && fetcher.httpGet(url).Some?
    && Extension(fetcher.httpGet(url).value.contentType, fetcher.getExtension) == Some("html")
    && SliceTitle(fetcher.httpGet(url).value.titleText) == ""
  }

  /** The fields read from the HTTP response alone, for every response that
      does not need the browser. */
  function FromResponse(resp: HttpResponse, fetcher: Fetcher): (f: Fields)
    ensures f.url == resp.finalUrl
    ensures Extension(resp.contentType, fetcher.getExtension) == Some("html") ==>
              f.title == SliceTitle(resp.titleText) && f.description == Description(resp.metaDescription)
    ensures Extension(resp.contentType, fetcher.getExtension) == Some("xml") && Contains(resp.body, "<oembed>") ==>
              f.title == (if resp.titleText == "" then "Untitled XML file" else SliceTitle(resp.titleText))
              && f.description == Some("")
    ensures var ext := Extension(resp.contentType, fetcher.getExtension);
            ext != Some("html") && !(ext == Some("xml") && Contains(resp.body, "<oembed>")) ==>
              f.title == "Untitled " + (if ext.Some? then ext.value else "null") && f.description.None?
  {
    var ext := Extension(resp.contentType, fetcher.getExtension);
    if ext == Some("html") then
      Fields(resp.finalUrl, SliceTitle(resp.titleText), Description(resp.metaDescription))
    else if ext == Some("xml") && Contains(resp.body, "<oembed>") then
      var title := SliceTitle(resp.titleText);
      Fields(resp.finalUrl, if title != "" then title else "Untitled XML file", Some(""))
    else
      Fields(resp.finalUrl, "Untitled " + (if ext.Some? then ext.value else "null"), None)
  }

  /** `getPageFields`, given whether the pool has a page free. */
  function FieldsFor(url: string, fetcher: Fetcher, pageFree: bool): (r: Result<Fields, Error>)
    ensures fetcher.httpGet(url).None? ==> r == Failure(FetchFailed)
    ensures fetcher.httpGet(url).Some? && !NeedsBrowser(url, fetcher) ==>
              r == Success(FromResponse(fetcher.httpGet(url).value, fetcher))
    ensures NeedsBrowser(url, fetcher) ==>
              r == if !pageFree then Failure(PoolExhausted)
                   else match fetcher.navigate(url)
                        case None => Failure(FetchFailed)
                        case Some(page) => Success(Fields(page.finalUrl, page.title, page.metaText))
  {
    match fetcher.httpGet(url)
    case None => Failure(FetchFailed)
    case Some(resp) =>
      if NeedsBrowser(url, fetcher) then
        if !pageFree then Failure(PoolExhausted)
        else match fetcher.navigate(url)
             case None => Failure(FetchFailed)
             case Some(page) => Success(Fields(page.finalUrl, page.title, page.metaText))
      else Success(FromResponse(resp, fetcher))
  }

  /** The fields of an HTML page with a title: the final URL, the title cut
      to 280 characters, and the description rule. */
  lemma HtmlWithTitle(url: string, fetcher: Fetcher, pageFree: bool)
    requires fetcher.httpGet(url).Some?
    requires Extension(fetcher.httpGet(url).value.contentType, fetcher.getExtension) == Some("html")
    requires fetcher.httpGet(url).value.titleText != ""
    ensures var resp := fetcher.httpGet(url).value;
            FieldsFor(url, fetcher, pageFree) ==
              Success(Fields(resp.finalUrl, resp.titleText[..Min(|resp.titleText|, MaxFieldLength)], Description(resp.metaDescription)))
  {
  }

  /** An oEmbed XML response keeps its cut title, or "Untitled XML file" for
      an empty one, with the description "". */
  lemma OembedFields(url: string, fetcher: Fetcher, pageFree: bool)
    requires fetcher.httpGet(url).Some?
    requires Extension(fetcher.httpGet(url).value.contentType, fetcher.getExtension) == Some("xml")
    requires Contains(fetcher.httpGet(url).value.body, "<oembed>")
    ensures var resp := fetcher.httpGet(url).value;
            && FieldsFor(url, fetcher, pageFree).Success?
            && FieldsFor(url, fetcher, pageFree).value.url == resp.finalUrl
            && FieldsFor(url, fetcher, pageFree).value.description == Some("")
            && FieldsFor(url, fetcher, pageFree).value.title ==
                 if resp.titleText == "" then "Untitled XML file" else SliceTitle(resp.titleText)
  {
  }

  /** Any other response, an XML one without `<oembed>` included, is titled
      "Untitled " and its extension ("null" when mime knows none), with a
      null description. */
  lemma OtherTypeFields(url: string, fetcher: Fetcher, pageFree: bool)
    requires fetcher.httpGet(url).Some?
    requires var resp := fetcher.httpGet(url).value;
             var ext := Extension(resp.contentType, fetcher.getExtension);
             ext != Some("html") && !(ext == Some("xml") && Contains(resp.body, "<oembed>"))
    ensures var resp := fetcher.httpGet(url).value;
            var ext := Extension(resp.contentType, fetcher.getExtension);
            FieldsFor(url, fetcher, pageFree) ==
              Success(Fields(resp.finalUrl, "Untitled " + (if ext.Some? then ext.value else "null"), None))
  {
  }

  /** The browser page is checked out, and not given back when navigation
      throws: there is no `finally` around it. */
  predicate LeaksPage(url: string, fetcher: Fetcher, pageFree: bool)
  {
    NeedsBrowser(url, fetcher) && pageFree && fetcher.navigate(url).None?
  }

  /** `getPageFields`. Pages with a title never touch the pool. */
  method GetPageFields(pool: PagePool, url: string, fetcher: Fetcher) returns (r: Result<Fields, Error>)
    requires pool.Valid()
    modifies pool
    ensures pool.Valid()
    ensures r == FieldsFor(url, fetcher, old(pool.checkedOut) < pool.max)
    ensures pool.checkedOut ==
              if LeaksPage(url, fetcher, old(pool.checkedOut) < pool.max) then old(pool.checkedOut) + 1 else old(pool.checkedOut)
  {
    var response := fetcher.httpGet(url);
    if response.None? {
      return Failure(FetchFailed);
    }
    var resp := response.value;
    var extension := Extension(resp.contentType, fetcher.getExtension);
    if extension == Some("html") {
      var titleTagText := SliceTitle(resp.titleText);
      var description := Description(resp.metaDescription);
      if titleTagText != "" {
        return Success(Fields(resp.finalUrl, titleTagText, description));
      }
      var acquired := pool.Acquire();
      if !acquired {
        return Failure(PoolExhausted);
      }
      var page := fetcher.navigate(url);
      if page.None? {
        return Failure(FetchFailed);
      }
      pool.Destroy();
      return Success(Fields(page.value.finalUrl, page.value.title, page.value.metaText));
    } else if extension == Some("xml") && Contains(resp.body, "<oembed>") {
      var title := SliceTitle(resp.titleText);
      return Success(Fields(resp.finalUrl, if title != "" then title else "Untitled XML file", Some("")));
    } else {
      return Success(Fields(resp.finalUrl, "Untitled " + (if extension.Some? then extension.value else "null"), None));
    }
  }

  /** `add`: fetch, skip when the owner already has a row with that URL
      (deleted or not), otherwise insert one row whose domain is the URL's
      hostname. */
  method Add(table: Table, pool: PagePool, fetcher: Fetcher, email: string, urlRaw: string, now: int, insertOk: bool)
    returns (r: Result<(), Error>)
    requires table.Valid() && pool.Valid() && table.clock <= now
    modifies table, pool
    ensures table.Valid() && pool.Valid()
    ensures pool.checkedOut ==
              if LeaksPage(urlRaw, fetcher, old(pool.checkedOut) < pool.max) then old(pool.checkedOut) + 1 else old(pool.checkedOut)
    ensures old(table.clock) <= table.clock <= now
    ensures var fetched := FieldsFor(urlRaw, fetcher, old(pool.checkedOut) < pool.max);
            fetched.Failure? ==> r == Failure(fetched.error) && table.rows == old(table.rows)
    ensures var fetched := FieldsFor(urlRaw, fetcher, old(pool.checkedOut) < pool.max);
            fetched.Success? && HasLink(old(table.rows), email, fetched.value.url) ==>
              r.Success? && table.rows == old(table.rows)
    ensures var fetched := FieldsFor(urlRaw, fetcher, old(pool.checkedOut) < pool.max);
            fetched.Success? && !HasLink(old(table.rows), email, fetched.value.url) ==>
              match fetcher.parseUrl(fetched.value.url)
              case None => r == Failure(InvalidUrl) && table.rows == old(table.rows)
              case Some(u) =>
                var rec := NewLink(email, fetched.value.url, u.hostname, Some(fetched.value.title),
                                   fetched.value.description, None, None, None, None);
                if insertOk then r.Success? && table.rows == Inserted(old(table.rows), rec, now)
                else r == Failure(StoreFailed) && table.rows == old(table.rows)
  {
    var fetched := GetPageFields(pool, urlRaw, fetcher);
    if fetched.Failure? {
      return Failure(fetched.error);
    }
    var fields := fetched.value;
    if table.Contains(email, fields.url) {
      return Success(());
    }
    var parsed := fetcher.parseUrl(fields.url);
    if parsed.None? {
      return Failure(InvalidUrl);
    }
    var rec := NewLink(email, fields.url, parsed.value.hostname, Some(fields.title), fields.description, None, None, None, None);
    r := table.Insert(rec, now, insertOk);
  }

}

=== FILE: link_table.dfy ===
/** The `links` table as one mutable object, with the statements the routes
    run against it: the insert of the capture pipeline and the three
    recycle-bin routes. Each route method applies the matching table update
    of module RecycleBin to the rows. */
module LinkTable {
  import opened Wrappers
  import opened Links
  import opened RecycleBin
  import opened Web

  /** `!linkId`: the request body carried no id, or the id 0. */
  predicate Falsy(linkId: Option<int>)
  {
    linkId.None? || linkId.value == 0
  }

  class Table {
    var rows: seq<Link>
    /** The latest time a statement stamped; the clock never runs backwards. */
    var clock: int

    ghost predicate Valid()
      reads this
    {
      && UniqueIds(rows)
      && forall l :: l in rows ==> l.dateSaved <= clock && (l.dateDeleted.Some? ==> l.dateDeleted.value <= clock)
    }

    constructor ()
      ensures Valid() && rows == [] && clock == 0
    {
      rows := [];
      clock := 0;
    }

    /** `select 1 from links where email=? and url=?` */
    function Contains(email: string, url: string): (found: bool)
      reads this
      ensures found <==> exists l :: l in rows && l.email == email && l.url == url
    {
      HasLink(rows, email, url)
    }

    /** `insert into links (...) values (...)`; `ok` is whether SQLite accepts
        the row. */
    method Insert(rec: NewLink, now: int, ok: bool) returns (r: Result<(), Error>)
      requires Valid() && clock <= now
      modifies this
      ensures Valid() && clock == now
      ensures ok ==> r.Success? && rows == Inserted(old(rows), rec, now)
      ensures !ok ==> r == Failure(StoreFailed) && rows == old(rows)
    {
      clock := now;
      if ok {
        rows := Inserted(rows, rec, now);
        r := Success(());
      } else {
        r := Failure(StoreFailed);
      }
    }

    /** moveToRecycleBin.ts `post`: soft-delete the row, then purge the
        owner's bin down to its newest row. */
    method MoveToRecycleBin(email: string, linkId: Option<int>, now: int)
      requires Valid() && clock <= now
      modifies this
      ensures Valid() && clock == now
      ensures rows == if Falsy(linkId) then old(rows) else MovedToBin(old(rows), email, linkId.value, now)
      ensures !Falsy(linkId) ==> |BinOf(rows, email)| <= 1
      ensures forall other :: other != email ==> OwnedBy(rows, other) == OwnedBy(old(rows), other)
    {
      clock := now;
      if Falsy(linkId) {
        return;
      }
      var id := linkId.value;
      ghost var before := rows;
      rows := SoftDeleted(rows, email, id, now);
      ghost var marked := rows;
      assert forall l :: l in marked ==> l.dateSaved <= now && (l.dateDeleted.Some? ==> l.dateDeleted.value <= now) by {
        forall l | l in marked ensures l.dateSaved <= now && (l.dateDeleted.Some? ==> l.dateDeleted.value <= now) {
          var i :| 0 <= i < |marked| && marked[i] == l;
          assert before[i] in before;
        }
      }
      rows := Purged(rows, email);
      StatementsKeepIdsUnique(before, email, id, now);
      PurgeLeavesNewestOnly(marked, email);
      forall other | other != email ensures OwnedBy(rows, other) == OwnedBy(before, other) {
        MoveToBinKeepsOtherOwners(before, email, id, now, other);
      }
    }

    /** moveFromRecycleBin.ts `post`: clear the deletion time. */
    method MoveFromRecycleBin(email: string, linkId: Option<int>)
      requires Valid()
      modifies this
      ensures Valid() && clock == old(clock)
      ensures rows == if Falsy(linkId) then old(rows) else Restored(old(rows), email, linkId.value)
    {
      if Falsy(linkId) {
        return;
      }
      ghost var before := rows;
      rows := Restored(rows, email, linkId.value);
      StatementsKeepIdsUnique(before, email, linkId.value, clock);
      forall l | l in rows ensures l.dateSaved <= clock && (l.dateDeleted.Some? ==> l.dateDeleted.value <= clock) {
        var i :| 0 <= i < |rows| && rows[i] == l;
        assert before[i] in before;
      }
    }

    /** deleteLink.ts `post`: remove the owner's row with that id. */
    method DeleteLink(email: string, linkId: Option<int>)
      requires Valid()
      modifies this
      ensures Valid() && clock == old(clock)
      ensures rows == if Falsy(linkId) then old(rows) else WithoutLink(old(rows), email, linkId.value)
      ensures !Falsy(linkId) ==> forall l :: l in rows ==> !Targets(l, email, linkId.value)
    {
      if Falsy(linkId) {
        return;
      }
      StatementsKeepIdsUnique(rows, email, linkId.value, clock);
      rows := WithoutLink(rows, email, linkId.value);
    }
  }

}

=== FILE: links.dfy ===
/** The `links` table's record (sapper/src/routes/_lib/types.ts) and the
    queries the capture pipeline runs against it. Timestamps are integers of
    a monotonic clock instead of SQLite's local-time text. */
module Links {
  import opened Wrappers
  import opened Colors

  datatype Link = Link(
    id: int,
    email: string,
    domain: string,
    url: string,
    title: Option<string>,
    description: Option<string>,
    dateSaved: int,
    dateDeleted: Option<int>,
    body: Option<string>,
    favicon: Option<string>,
    faviconColor: Option<Rgb>,
    faviconTailwindColor: Option<string>)

  /** A row before insertion: Link without id, dateSaved and dateDeleted. */
  datatype NewLink = NewLink(
    email: string,
    url: string,
    domain: string,
    title: Option<string>,
    description: Option<string>,
    body: Option<string>,
    favicon: Option<string>,
    faviconColor: Option<Rgb>,
    faviconTailwindColor: Option<string>)

  /** `select 1 from links where email=? and url=?` finds a row. The query
      does not look at dateDeleted: a row in the recycle bin counts too. */
  predicate HasLink(rows: seq<Link>, email: string, url: string)
  {
    exists i :: 0 <= i < |rows| && rows[i].email == email && rows[i].url == url
  }

  predicate UniqueIds(rows: seq<Link>)
  {
    forall i, j :: 0 <= i < j < |rows| ==> rows[i].id != rows[j].id
  }

  /** The largest id in the table, 0 when it is empty. */
  function MaxId(rows: seq<Link>): (m: int)
    ensures m >= 0
    ensures forall i :: 0 <= i < |rows| ==> rows[i].id <= m
  {
    if rows == [] then 0
    else
      var rest := MaxId(rows[1..]);
      if rows[0].id > rest then rows[0].id else rest
  }

  /** The id SQLite gives an `integer primary key` row inserted without one. */
  function NextId(rows: seq<Link>): (id: int)
    ensures id >= 1
    ensures forall i :: 0 <= i < |rows| ==> rows[i].id < id
  {
    MaxId(rows) + 1
  }

  function ToRow(rec: NewLink, id: int, now: int): Link
  {
    Link(id, rec.email, rec.domain, rec.url, rec.title, rec.description, now, None,
         rec.body, rec.favicon, rec.faviconColor, rec.faviconTailwindColor)
  }

  /** The insert: the new row goes at the end with the next id, saved now and
      not deleted. Ids stay unique and the stored URL is found afterwards, so
      a second add of the same final URL is a no-op. */
  function Inserted(rows: seq<Link>, rec: NewLink, now: int): (r: seq<Link>)
    ensures |r| == |rows| + 1 && r[..|rows|] == rows
    ensures r[|rows|].id !in (set l | l in rows :: l.id)
    ensures r[|rows|].dateSaved == now && r[|rows|].dateDeleted.None?
    ensures r[|rows|].email == rec.email && r[|rows|].url == rec.url && r[|rows|].domain == rec.domain
    ensures r[|rows|].title == rec.title && r[|rows|].description == rec.description && r[|rows|].body == rec.body
    ensures r[|rows|].favicon == rec.favicon && r[|rows|].faviconColor == rec.faviconColor
    ensures r[|rows|].faviconTailwindColor == rec.faviconTailwindColor
    ensures UniqueIds(rows) ==> UniqueIds(r)
    ensures HasLink(r, rec.email, rec.url)
  {
    var r := rows + [ToRow(rec, NextId(rows), now)];
    assert r[|rows|].email == rec.email && r[|rows|].url == rec.url;
    r
  }

}

=== FILE: migrations.dfy ===
/** The schema migration runner of src/lib/db.ts: inside one transaction,
    run every migration the stored `user_version` has not seen yet, in list
    order, then record the list length as the new version. */
module Migrations {
  import opened Wrappers

  /** Where JavaScript's `Array.prototype.slice(start)` begins on an array
      of length `len`: a negative start counts from the end, and the result
      is clamped to `0..len`. */
  function SliceStart(len: nat, start: int): (k: nat)
    ensures k <= len
    ensures 0 <= start <= len ==> k == start
    ensures start >= len ==> k == len
    ensures start < 0 ==> k == if len + start < 0 then 0 else len + start
  {
    if start < 0 then (if len + start < 0 then 0 else len + start)
    else if start > len then len
    else start
  }

  /** `migrations.slice(schemaVersion)`: the migrations still to run. */
  function Pending(migrations: seq<string>, schemaVersion: int): (p: seq<string>)
    ensures |p| <= |migrations|
    ensures 0 <= schemaVersion <= |migrations| ==> p == migrations[schemaVersion..]
    ensures schemaVersion >= |migrations| ==> p == []
  {
    migrations[SliceStart(|migrations|, schemaVersion)..]
  }

  /** Index of the first migration that fails, if any. */
  function FirstFailure(pending: seq<string>, execOk: string -> bool): (i: Option<nat>)
    ensures i.None? <==> forall j :: 0 <= j < |pending| ==> execOk(pending[j])
    ensures i.Some? ==> i.value < |pending| && !execOk(pending[i.value]) &&
                        forall j :: 0 <= j < i.value ==> execOk(pending[j])
  {
    if pending == [] then None
    else if !execOk(pending[0]) then Some(0)
    else match FirstFailure(pending[1..], execOk)
      case None => None
      case Some(i) => Some(i + 1)
  }

  /** The SQLite database as the runner sees it: its `user_version` pragma and
      the statements committed to it so far, in order. */
  class Database {
    var userVersion: int
    var executed: seq<string>

    constructor (userVersion: int, executed: seq<string>)
      ensures this.userVersion == userVersion && this.executed == executed
    {
      this.userVersion := userVersion;
      this.executed := executed;
    }

    /** The transaction of db.ts. `execOk` says whether `db.exec` of a
        statement succeeds; a failing statement throws and the transaction rolls
        back. The model reports the failing statement as the error, where
        db.ts rethrows SQLite's own error. */
    method Migrate(migrations: seq<string>, execOk: string -> bool) returns (r: Result<(), string>)
      modifies this
      ensures var pending := Pending(migrations, old(userVersion));
              match FirstFailure(pending, execOk)
              case None =>
                r.Success? && executed == old(executed) + pending && userVersion == |migrations|
              case Some(i) =>
                r == Failure(pending[i]) && executed == old(executed) && userVersion == old(userVersion)
    {
      var snapshot := executed;
      var schemaVersion := userVersion;
      var pending := migrations[SliceStart(|migrations|, schemaVersion)..];
      for i := 0 to |pending|
        invariant executed == snapshot + pending[..i]
        invariant forall j :: 0 <= j < i ==> execOk(pending[j])
        invariant userVersion == schemaVersion
      {
        if !execOk(pending[i]) {
          executed := snapshot;
          return Failure(pending[i]);
        }
        executed := executed + [pending[i]];
        assert pending[..i + 1] == pending[..i] + [pending[i]];
      }
      assert pending[..|pending|] == pending;
      userVersion := |migrations|;
      return Success(());
    }
  }

  /** Running the runner again after it committed executes nothing and
      leaves the version as it was. */
  method MigrateTwice(db: Database, migrations: seq<string>, execOk: string -> bool)
    returns (first: Result<(), string>, second: Result<(), string>)
    modifies db
    ensures first.Success? ==>
              second.Success? && db.userVersion == |migrations| &&
              db.executed == old(db.executed) + Pending(migrations, old(db.userVersion))
  {
    first := db.Migrate(migrations, execOk);
    if first.Success? {
      ghost var afterFirst := db.executed;
      second := db.Migrate(migrations, execOk);
      assert Pending(migrations, |migrations|) == [];
      assert db.executed == afterFirst;
    } else {
      second := db.Migrate(migrations, execOk);
    }
  }

  /** A version of 0 runs the whole list; a negative version, which SQLite
      allows, runs only the last `-schemaVersion` migrations, as `slice` does. */
  lemma NegativeVersionRunsSuffix(migrations: seq<string>, schemaVersion: int)
    requires schemaVersion <= 0
    ensures Pending(migrations, schemaVersion) ==
              if |migrations| + schemaVersion <= 0 || schemaVersion == 0 then migrations
              else migrations[|migrations| + schemaVersion..]
  {
  }
}

=== FILE: recycle_bin.dfy ===
/** The table updates behind the recycle-bin routes
    (sapper/src/routes/app/moveToRecycleBin.ts, moveFromRecycleBin.ts,
    deleteLink.ts), as functions from the rows before a statement to the rows
    after it, and what they guarantee. */
module RecycleBin {
  import opened Wrappers
  import opened Links

  /** `id=? and email=?` */
  predicate Targets(l: Link, email: string, id: int)
  {
    l.email == email && l.id == id
  }

  /** `email=? and dateDeleted is not null`: the row is in that owner's bin. */
  predicate InBin(l: Link, email: string)
  {
    l.email == email && l.dateDeleted.Some?
  }

  // ---------------------------------------------------------------------------
  // Views used to state the properties
  // ---------------------------------------------------------------------------

  /** The rows of one owner, in table order. */
  function OwnedBy(rows: seq<Link>, email: string): (r: seq<Link>)
    ensures forall l :: l in r <==> l in rows && l.email == email
  {
    if rows == [] then []
    else if rows[0].email == email then [rows[0]] + OwnedBy(rows[1..], email)
    else OwnedBy(rows[1..], email)
  }

  /** The owner's active rows (dateDeleted is null), in table order. */
  function ActiveOf(rows: seq<Link>, email: string): (r: seq<Link>)
    ensures forall l :: l in r <==> l in rows && l.email == email && l.dateDeleted.None?
  {
    if rows == [] then []
    else if rows[0].email == email && rows[0].dateDeleted.None? then [rows[0]] + ActiveOf(rows[1..], email)
    else ActiveOf(rows[1..], email)
  }

  /** The owner's recycle bin, in table order. */
  function BinOf(rows: seq<Link>, email: string): (r: seq<Link>)
    ensures forall l :: l in r <==> l in rows && InBin(l, email)
  {
    if rows == [] then []
    else if InBin(rows[0], email) then [rows[0]] + BinOf(rows[1..], email)
    else BinOf(rows[1..], email)
  }

  // ---------------------------------------------------------------------------
  // moveToRecycleBin: the conditional update, then the purge
  // ---------------------------------------------------------------------------

  function SoftDeleteRow(l: Link, email: string, id: int, now: int): Link
  {
    if Targets(l, email, id) && l.dateDeleted.None? then l.(dateDeleted := Some(now)) else l
  }

  /** `update links set dateDeleted=now where id=? and email=? and dateDeleted is null` */
  function SoftDeleted(rows: seq<Link>, email: string, id: int, now: int): (r: seq<Link>)
    ensures |r| == |rows|
    ensures forall i :: 0 <= i < |rows| ==> r[i] == rows[i].(dateDeleted := r[i].dateDeleted)
    ensures forall i :: 0 <= i < |rows| ==>
              r[i].dateDeleted == if Targets(rows[i], email, id) && rows[i].dateDeleted.None? then Some(now) else rows[i].dateDeleted
  {
    if rows == [] then []
    else [SoftDeleteRow(rows[0], email, id, now)] + SoftDeleted(rows[1..], email, id, now)
  }

  /** The row the purge's sub-select keeps (`order by dateDeleted desc limit 1`):
      a bin row with the latest deletion time, the first in table order on a
      tie; None when the owner's bin is empty. */
  function Newest(rows: seq<Link>, email: string): (k: Option<Link>)
    ensures k.Some? ==> k.value in rows && InBin(k.value, email)
    ensures k.Some? ==> forall l :: l in rows && InBin(l, email) ==> l.dateDeleted.value <= k.value.dateDeleted.value
    ensures k.None? <==> forall l :: l in rows ==> !InBin(l, email)
  {
    if rows == [] then None
    else
      var rest := Newest(rows[1..], email);
      if InBin(rows[0], email) && (rest.None? || rest.value.dateDeleted.value <= rows[0].dateDeleted.value)
      then Some(rows[0])
      else rest
  }

  /** A row the purge does not delete: outside the owner's bin, or with the
      kept id. */
  predicate Survives(l: Link, email: string, keep: Option<Link>)
  {
    !InBin(l, email) || (keep.Some? && l.id == keep.value.id)
  }

  function KeepOnly(rows: seq<Link>, email: string, keep: Option<Link>): (r: seq<Link>)
    ensures forall l :: l in r <==> l in rows && Survives(l, email, keep)
  {
    if rows == [] then []
    else if Survives(rows[0], email, keep) then [rows[0]] + KeepOnly(rows[1..], email, keep)
    else KeepOnly(rows[1..], email, keep)
  }

  /** `delete from links where email=? and dateDeleted is not null and id not
      in (select id ... order by dateDeleted desc limit 1)` */
  function Purged(rows: seq<Link>, email: string): seq<Link>
  {
    KeepOnly(rows, email, Newest(rows, email))
  }

  /** Both statements of moveToRecycleBin, for a truthy link id. */
  function MovedToBin(rows: seq<Link>, email: string, id: int, now: int): seq<Link>
  {
    Purged(SoftDeleted(rows, email, id, now), email)
  }

  // ---------------------------------------------------------------------------
  // moveFromRecycleBin and deleteLink
  // ---------------------------------------------------------------------------

  /** `update links set dateDeleted=null where id=? and email=?` */
  function Restored(rows: seq<Link>, email: string, id: int): (r: seq<Link>)
    ensures |r| == |rows|
    ensures forall i :: 0 <= i < |rows| ==> r[i] == rows[i].(dateDeleted := r[i].dateDeleted)
    ensures forall i :: 0 <= i < |rows| ==>
              r[i].dateDeleted == if Targets(rows[i], email, id) then None else rows[i].dateDeleted
  {
    if rows == [] then []
    else
      var head := if Targets(rows[0], email, id) then rows[0].(dateDeleted := None) else rows[0];
      [head] + Restored(rows[1..], email, id)
  }

  /** `delete from links where email=? and id=?` */
  function WithoutLink(rows: seq<Link>, email: string, id: int): (r: seq<Link>)
    ensures forall l :: l in r <==> l in rows && !Targets(l, email, id)
    ensures |r| <= |rows|
  {
    if rows == [] then []
    else if Targets(rows[0], email, id) then WithoutLink(rows[1..], email, id)
    else [rows[0]] + WithoutLink(rows[1..], email, id)
  }

  // ---------------------------------------------------------------------------
  // Unique ids (the primary key) survive every statement
  // ---------------------------------------------------------------------------

  lemma UniqueIdsCons(x: Link, s: seq<Link>)
    requires UniqueIds(s)
    requires forall l :: l in s ==> l.id != x.id
    ensures UniqueIds([x] + s)
  {
    var t := [x] + s;
    forall i, j | 0 <= i < j < |t| ensures t[i].id != t[j].id {
      if i == 0 {
        assert t[j] == s[j - 1] && s[j - 1] in s;
      } else {
        assert t[i] == s[i - 1] && t[j] == s[j - 1];
      }
    }
  }

  lemma UniqueIdsTail(rows: seq<Link>)
    requires UniqueIds(rows) && rows != []
    ensures UniqueIds(rows[1..])
    ensures forall l :: l in rows[1..] ==> l.id != rows[0].id
  {
    forall l | l in rows[1..] ensures l.id != rows[0].id {
      var j :| 0 <= j < |rows[1..]| && rows[1..][j] == l;
      assert rows[j + 1] == l;
    }
  }

  lemma {:induction false} KeepOnlyUnique(rows: seq<Link>, email: string, keep: Option<Link>)
    requires UniqueIds(rows)
    ensures UniqueIds(KeepOnly(rows, email, keep))
  {
    if rows != [] {
      UniqueIdsTail(rows);
      KeepOnlyUnique(rows[1..], email, keep);
      if Survives(rows[0], email, keep) {
        UniqueIdsCons(rows[0], KeepOnly(rows[1..], email, keep));
      }
    }
  }

  lemma {:induction false} WithoutLinkUnique(rows: seq<Link>, email: string, id: int)
    requires UniqueIds(rows)
    ensures UniqueIds(WithoutLink(rows, email, id))
  {
    if rows != [] {
      UniqueIdsTail(rows);
      WithoutLinkUnique(rows[1..], email, id);
      if !Targets(rows[0], email, id) {
        UniqueIdsCons(rows[0], WithoutLink(rows[1..], email, id));
      }
    }
  }

  /** Every statement keeps the primary key unique. */
  lemma StatementsKeepIdsUnique(rows: seq<Link>, email: string, id: int, now: int)
    requires UniqueIds(rows)
    ensures UniqueIds(SoftDeleted(rows, email, id, now))
    ensures UniqueIds(MovedToBin(rows, email, id, now))
    ensures UniqueIds(Restored(rows, email, id))
    ensures UniqueIds(WithoutLink(rows, email, id))
  {
    var s := SoftDeleted(rows, email, id, now);
    assert forall i :: 0 <= i < |rows| ==> s[i].id == rows[i].id;
    KeepOnlyUnique(s, email, Newest(s, email));
    var r := Restored(rows, email, id);
    assert forall i :: 0 <= i < |rows| ==> r[i].id == rows[i].id;
    WithoutLinkUnique(rows, email, id);
  }

  // ---------------------------------------------------------------------------
  // moveToRecycleBin: what it guarantees
  // ---------------------------------------------------------------------------

  lemma {:induction false} SoftDeletedKeepsOtherOwners(rows: seq<Link>, email: string, id: int, now: int, other: string)
    requires other != email
    ensures OwnedBy(SoftDeleted(rows, email, id, now), other) == OwnedBy(rows, other)
  {
    if rows != [] {
      SoftDeletedKeepsOtherOwners(rows[1..], email, id, now, other);
      assert SoftDeleted(rows, email, id, now)[1..] == SoftDeleted(rows[1..], email, id, now);
    }
  }

  lemma {:induction false} KeepOnlyKeepsOtherOwners(rows: seq<Link>, email: string, keep: Option<Link>, other: string)
    requires other != email
    ensures OwnedBy(KeepOnly(rows, email, keep), other) == OwnedBy(rows, other)
  {
    if rows != [] {
      KeepOnlyKeepsOtherOwners(rows[1..], email, keep, other);
    }
  }

  /** The rows of every other owner are neither changed nor removed, and keep
      their order. */
  lemma MoveToBinKeepsOtherOwners(rows: seq<Link>, email: string, id: int, now: int, other: string)
    requires other != email
    ensures OwnedBy(MovedToBin(rows, email, id, now), other) == OwnedBy(rows, other)
  {
    var s := SoftDeleted(rows, email, id, now);
    SoftDeletedKeepsOtherOwners(rows, email, id, now, other);
    KeepOnlyKeepsOtherOwners(s, email, Newest(s, email), other);
  }

  /** The purge never removes one of the owner's active rows. */
  lemma {:induction false} PurgeKeepsActiveRows(rows: seq<Link>, email: string, keep: Option<Link>)
    ensures ActiveOf(KeepOnly(rows, email, keep), email) == ActiveOf(rows, email)
  {
    if rows != [] {
      PurgeKeepsActiveRows(rows[1..], email, keep);
    }
  }

  lemma {:induction false} BinOfEmpty(rows: seq<Link>, email: string)
    requires forall l :: l in rows ==> !InBin(l, email)
    ensures BinOf(rows, email) == []
  {
    if BinOf(rows, email) != [] {
      assert BinOf(rows, email)[0] in BinOf(rows, email);
    }
  }

  lemma {:induction false} KeepOnlyBinIsKept(rows: seq<Link>, email: string, k: Link)
    requires UniqueIds(rows)
    requires k in rows && InBin(k, email)
    ensures BinOf(KeepOnly(rows, email, Some(k)), email) == [k]
  {
    UniqueIdsTail(rows);
    var tail := KeepOnly(rows[1..], email, Some(k));
    if rows[0] == k {
      assert KeepOnly(rows, email, Some(k)) == [k] + tail;
      forall l | l in tail ensures !InBin(l, email) {
        assert l in rows[1..] && l.id != k.id;
      }
      BinOfEmpty(tail, email);
      assert ([k] + tail)[1..] == tail;
    } else {
      assert k in rows[1..];
      KeepOnlyBinIsKept(rows[1..], email, k);
      if Survives(rows[0], email, Some(k)) {
        assert !InBin(rows[0], email);
        assert ([rows[0]] + tail)[1..] == tail;
      }
    }
  }

  /** After the purge the owner's bin holds exactly one row, the one with the
      latest deletion time before the purge, or nothing if it was empty. */
  lemma PurgeLeavesNewestOnly(rows: seq<Link>, email: string)
    requires UniqueIds(rows)
    ensures BinOf(Purged(rows, email), email) == match Newest(rows, email) case Some(k) => [k] case None => []
  {
    match Newest(rows, email)
    case Some(k) =>
      KeepOnlyBinIsKept(rows, email, k);
    case None =>
      BinOfEmpty(Purged(rows, email), email);
  }

  lemma {:induction false} KeepOnlyAll(rows: seq<Link>, email: string, keep: Option<Link>)
    requires forall l :: l in rows ==> Survives(l, email, keep)
    ensures KeepOnly(rows, email, keep) == rows
  {
    if rows != [] {
      KeepOnlyAll(rows[1..], email, keep);
    }
  }

  /** A second purge deletes nothing. */
  lemma PurgeIdempotent(rows: seq<Link>, email: string)
    ensures Purged(Purged(rows, email), email) == Purged(rows, email)
  {
    var p := Purged(rows, email);
    var k := Newest(rows, email);
    match Newest(p, email)
    case None =>
      KeepOnlyAll(p, email, None);
    case Some(k') =>
      assert k'.id == k.value.id;
      KeepOnlyAll(p, email, Some(k'));
  }

  lemma {:induction false} SoftDeletedUnchanged(rows: seq<Link>, email: string, id: int, now: int)
    requires forall l :: l in rows ==> !(Targets(l, email, id) && l.dateDeleted.None?)
    ensures SoftDeleted(rows, email, id, now) == rows
  {
    if rows != [] {
      SoftDeletedUnchanged(rows[1..], email, id, now);
    }
  }

  /** Repeating the call with the same link id, at any later time, leaves the
      table as the first call left it. */
  lemma MoveToBinIdempotent(rows: seq<Link>, email: string, id: int, now: int, later: int)
    ensures MovedToBin(MovedToBin(rows, email, id, now), email, id, later) == MovedToBin(rows, email, id, now)
  {
    var s := SoftDeleted(rows, email, id, now);
    var m := Purged(s, email);
    forall l | l in m ensures !(Targets(l, email, id) && l.dateDeleted.None?) {
      var i :| 0 <= i < |s| && s[i] == l;
    }
    SoftDeletedUnchanged(m, email, id, later);
    PurgeIdempotent(s, email);
  }

  /** With a clock that has moved past every deletion time in the owner's bin,
      soft-deleting one of the owner's active rows leaves exactly that row in
      the bin: the others are gone for good. */
  lemma LatestDeletionSurvives(rows: seq<Link>, email: string, i: nat, now: int)
    requires UniqueIds(rows)
    requires i < |rows| && rows[i].email == email && rows[i].dateDeleted.None?
    requires forall l :: l in rows && InBin(l, email) ==> l.dateDeleted.value < now
    ensures BinOf(MovedToBin(rows, email, rows[i].id, now), email) == [rows[i].(dateDeleted := Some(now))]
  {
    var id := rows[i].id;
    var s := SoftDeleted(rows, email, id, now);
    StatementsKeepIdsUnique(rows, email, id, now);
    var k := Newest(s, email);
    assert s[i] in s && InBin(s[i], email);
    PurgeLeavesNewestOnly(s, email);
  }

  // ---------------------------------------------------------------------------
  // moveFromRecycleBin and deleteLink: what they guarantee
  // ---------------------------------------------------------------------------

  /** Restoring twice is restoring once. */
  lemma RestoreIdempotent(rows: seq<Link>, email: string, id: int)
    ensures Restored(Restored(rows, email, id), email, id) == Restored(rows, email, id)
  {
    var r := Restored(rows, email, id);
    var rr := Restored(r, email, id);
    forall i | 0 <= i < |rows| ensures rr[i] == r[i] {
      assert r[i].id == rows[i].id && r[i].email == rows[i].email;
    }
  }

  /** Deleting an id the owner does not have changes nothing. */
  lemma {:induction false} DeleteMissingIsNoop(rows: seq<Link>, email: string, id: int)
    requires forall l :: l in rows ==> !Targets(l, email, id)
    ensures WithoutLink(rows, email, id) == rows
  {
    if rows != [] {
      DeleteMissingIsNoop(rows[1..], email, id);
    }
  }

  /** Deleting twice is deleting once. */
  lemma DeleteIdempotent(rows: seq<Link>, email: string, id: int)
    ensures WithoutLink(WithoutLink(rows, email, id), email, id) == WithoutLink(rows, email, id)
  {
    DeleteMissingIsNoop(WithoutLink(rows, email, id), email, id);
  }

  /** A delete leaves every other owner's rows exactly as before, in their
      order. */
  lemma {:induction false} DeleteKeepsOthersInOrder(rows: seq<Link>, email: string, id: int, other: string)
    requires other != email
    ensures OwnedBy(WithoutLink(rows, email, id), other) == OwnedBy(rows, other)
  {
    if rows != [] {
      DeleteKeepsOthersInOrder(rows[1..], email, id, other);
    }
  }

}

=== FILE: store_link.dfy ===
/** The capture pipeline of sapper/src/routes/app/storeLink.ts: field
    truncation, the YouTube redirect unwrapping, the content-type driven
    extraction of `getPageFields` over one pooled browser page, and `add`'s
    dedup-then-insert. The env, the URL parser, mime, colorthief and the
    Tailwind colour table are the fields of an `Environment` value. */
module StoreLink {
  import opened Wrappers
  import opened Text
  import opened Colors
  import opened Web
  import opened Links
  import opened LinkTable

  const MaxFieldLength: nat := 280

  /** The foreign calls the pipeline makes, as functions of their inputs, and
      the colour table it imports. */
  datatype Environment = Environment(
    parseUrl: string -> Option<Url>,               // new URL(s); None when it throws
    resolveUrl: (string, string) -> Option<string>, // new URL(path, base).toString()
    navigate: string -> Option<LoadedPage>,         // page.goto and the reads after it; None when it throws
    getExtension: string -> Option<string>,         // mime.getExtension
    sampleColor: string -> Option<Rgb>,             // colorThief.getColor; None when it throws
    colorTable: seq<ColorEntry>)                    // Object.values(tailwindcss/colors)

  datatype PageFields = PageFields(
    url: string,
    title: string,
    description: Option<string>,
    favicon: Option<string>,
    faviconColor: Option<Rgb>,
    faviconTailwindColor: Option<string>)

  // ---------------------------------------------------------------------------
  // truncate
  // ---------------------------------------------------------------------------

  /** `truncate(maxLength, str)`. Null and "" come back as they are, and so
      does any string of at most maxLength - 3 characters. Any longer one gets
      "..." after its first maxLength characters, even when nothing was cut,
      so a result can be up to maxLength + 3 long. */
  function Truncate(maxLength: nat, s: Option<string>): (r: Option<string>)
    ensures r.Some? <==> s.Some?
    ensures s.Some? && (s.value == "" || |s.value| <= maxLength - 3) ==> r == s
    ensures s.Some? && s.value != "" && |s.value| > maxLength - 3 ==>
              |r.value| == Min(|s.value|, maxLength) + 3 &&
              r.value[..|r.value| - 3] == s.value[..Min(|s.value|, maxLength)] &&
              r.value[|r.value| - 3..] == "..."
    ensures r.Some? ==> |r.value| <= maxLength + 3
  {
    match s
    case None => None
    case Some(str) =>
      if str == "" then s
      else if |str| > maxLength - 3 then Some(str[..Min(|str|, maxLength)] + "...")
      else s
  }

  /** The ellipsis is appended to a string that was not cut at all. */
  lemma TruncateAppendsWithoutCutting(maxLength: nat, str: string)
    requires str != "" && maxLength - 3 < |str| <= maxLength
    ensures Truncate(maxLength, Some(str)) == Some(str + "...")
  {
    assert str[..|str|] == str;
  }

  // ---------------------------------------------------------------------------
  // YouTube redirect unwrapping
  // ---------------------------------------------------------------------------

  /** The outer URL is a youtube.com redirect whose non-empty `url` parameter
      parses to a youtube.com `/watch` URL with a `v` parameter. */
  predicate UnwrapsYouTube(url: string, parse: string -> Option<Url>)
  {
    && parse(url).Some?
    && EndsWith(parse(url).value.hostname, "youtube.com")
    && var embedded := QueryGet(parse(url).value.query, "url");
    && embedded.Some? && embedded.value != ""
    && parse(embedded.value).Some?
    && EndsWith(parse(embedded.value).value.hostname, "youtube.com")
    && StartsWith(parse(embedded.value).value.pathname, "/watch")
    && QueryHas(parse(embedded.value).value.query, "v")
  }

  /** The URL `getPageFields` navigates to: the embedded target of a YouTube
      redirect, otherwise the URL as given. None when the outer URL does not
      parse (that exception escapes); a failure to parse the embedded URL is
      swallowed. */
  function UnwrapRedirect(url: string, parse: string -> Option<Url>): (target: Option<string>)
    ensures target.None? <==> parse(url).None?
    ensures UnwrapsYouTube(url, parse) ==> target == QueryGet(parse(url).value.query, "url")
    ensures parse(url).Some? && !UnwrapsYouTube(url, parse) ==> target == Some(url)
  {
    match parse(url)
    case None => None
    case Some(outer) =>
      var embedded := QueryGet(outer.query, "url");
      if EndsWith(outer.hostname, "youtube.com") && embedded.Some? && embedded.value != "" then
        match parse(embedded.value)
        case None => Some(url)
        case Some(inner) =>
          if EndsWith(inner.hostname, "youtube.com") && StartsWith(inner.pathname, "/watch") && QueryHas(inner.query, "v")
          then Some(embedded.value)
          else Some(url)
      else Some(url)
  }

  // ---------------------------------------------------------------------------
  // Content-type classification
  // ---------------------------------------------------------------------------

  /** The JavaScript value of `contentType && mime.getExtension(contentType)`. */
  datatype FileExt = Undefined | Null | Ext(name: string)

  /** How the template literal `Untitled ${fileExtension}` prints it. */
  function ShowExt(e: FileExt): string
  {
    match e
    case Undefined => "undefined"
    case Null => "null"
    case Ext(name) => name
  }

  function FileExtension(contentType: Option<string>, getExtension: string -> Option<string>): (e: FileExt)
    ensures contentType.None? ==> e == Undefined
    ensures contentType == Some("") ==> e == Ext("")
    ensures contentType.Some? && contentType.value != "" ==>
              e == match getExtension(contentType.value) case Some(x) => Ext(x) case None => Null
  {
    match contentType
    case None => Undefined
    case Some(ct) =>
      if ct == "" then Ext("")
      else match getExtension(ct) case Some(x) => Ext(x) case None => Null
  }

  /** `faviconPath && new URL(faviconPath, url).toString()`: null and "" pass
      through, anything else is resolved against the URL that was loaded. */
  function ResolveFavicon(iconHref: Option<string>, base: string, resolve: (string, string) -> Option<string>): (f: Result<Option<string>, Error>)
    ensures iconHref.None? ==> f == Success(None)
    ensures iconHref == Some("") ==> f == Success(Some(""))
    ensures iconHref.Some? && iconHref.value != "" ==>
              f == match resolve(iconHref.value, base) case Some(u) => Success(Some(u)) case None => Failure(InvalidUrl)
  {
    match iconHref
    case None => Success(None)
    case Some(path) =>
      if path == "" then Success(Some(""))
      else match resolve(path, base) case Some(u) => Success(Some(u)) case None => Failure(InvalidUrl)
  }

  /** The colour fields: sampled only for a non-empty favicon URL; every
      failure leaves both null. */
  function FaviconColors(favicon: Option<string>, env: Environment): (m: Option<ColorMatch>)
    ensures favicon.None? || favicon == Some("") ==> m.None?
    ensures favicon.Some? && favicon.value != "" ==>
              m == ParseColorsForImage(Palette(env.colorTable), env.sampleColor(favicon.value))
  {
    match favicon
    case Some(f) =>
      if f == "" then None else ParseColorsForImage(Palette(env.colorTable), env.sampleColor(f))
    case None => None
  }

  /** What `getPageFields` returns for a page loaded from `base`. */
  function Classify(page: LoadedPage, base: string, env: Environment): (r: Result<PageFields, Error>)
    ensures r.Success? ==> r.value.url == page.finalUrl
    ensures FileExtension(page.contentType, env.getExtension) != Ext("html") ==>
              r == Success(PageFields(page.finalUrl, "Untitled " + ShowExt(FileExtension(page.contentType, env.getExtension)),
                                      None, None, None, None))
    ensures FileExtension(page.contentType, env.getExtension) == Ext("html") ==>
              (r.Success? <==> ResolveFavicon(page.iconHref, base, env.resolveUrl).Success?)
    ensures FileExtension(page.contentType, env.getExtension) == Ext("html") && r.Success? ==>
              && Some(r.value.title) == Truncate(MaxFieldLength, Some(page.title))
              && r.value.description == Truncate(MaxFieldLength, page.metaContent)
              && r.value.favicon == ResolveFavicon(page.iconHref, base, env.resolveUrl).value
              && var m := FaviconColors(r.value.favicon, env);
              && r.value.faviconColor == (if m.Some? then Some(m.value.faviconColor) else None)
              && r.value.faviconTailwindColor == (if m.Some? then Some(m.value.faviconTailwindColor) else None)
  {
    var ext := FileExtension(page.contentType, env.getExtension);
    if ext == Ext("html") then
      match ResolveFavicon(page.iconHref, base, env.resolveUrl)
      case Failure(e) => Failure(e)
      case Success(favicon) =>
        var colors := FaviconColors(favicon, env);
        Success(PageFields(
          page.finalUrl,
          Truncate(MaxFieldLength, Some(page.title)).value,
          Truncate(MaxFieldLength, page.metaContent),
          favicon,
          if colors.Some? then Some(colors.value.faviconColor) else None,
          if colors.Some? then Some(colors.value.faviconTailwindColor) else None))
    else
      Success(PageFields(page.finalUrl, "Untitled " + ShowExt(ext), None, None, None, None))
  }

  /** Everything `getPageFields` computes once it holds a page. */
  function PageFieldsFor(url: string, env: Environment): (r: Result<PageFields, Error>)
    ensures env.parseUrl(url).None? ==> r == Failure(InvalidUrl)
    ensures UnwrapRedirect(url, env.parseUrl).Some? && env.navigate(UnwrapRedirect(url, env.parseUrl).value).None? ==>
              r == Failure(FetchFailed)
    ensures UnwrapRedirect(url, env.parseUrl).Some? && env.navigate(UnwrapRedirect(url, env.parseUrl).value).Some? ==>
              r == Classify(env.navigate(UnwrapRedirect(url, env.parseUrl).value).value,
                            UnwrapRedirect(url, env.parseUrl).value, env)
    ensures r.Success? ==>
              && UnwrapRedirect(url, env.parseUrl).Some?
              && env.navigate(UnwrapRedirect(url, env.parseUrl).value).Some?
              && r.value.url == env.navigate(UnwrapRedirect(url, env.parseUrl).value).value.finalUrl
  {
    match UnwrapRedirect(url, env.parseUrl)
    case None => Failure(InvalidUrl)
    case Some(target) =>
      match env.navigate(target)
      case None => Failure(FetchFailed)
      case Some(page) => Classify(page, target, env)
  }

  /** The favicon of an html page is resolved against the URL navigated to,
      which is the embedded target when a YouTube redirect was unwrapped. */
  lemma FaviconResolvedAgainstTarget(url: string, env: Environment, href: string)
    requires UnwrapsYouTube(url, env.parseUrl)
    requires var target := QueryGet(env.parseUrl(url).value.query, "url").value;
             && env.navigate(target).Some?
             && FileExtension(env.navigate(target).value.contentType, env.getExtension) == Ext("html")
             && env.navigate(target).value.iconHref == Some(href) && href != ""
    ensures var target := QueryGet(env.parseUrl(url).value.query, "url").value;
            match env.resolveUrl(href, target)
            case None => PageFieldsFor(url, env) == Failure(InvalidUrl)
            case Some(u) => PageFieldsFor(url, env).Success? && PageFieldsFor(url, env).value.favicon == Some(u)
  {
  }

  /** `getPageFields`: check a page out of the pool, work on it, and return
      it on every path, whether the fetch succeeded or threw. */
  method GetPageFields(pool: PagePool, url: string, env: Environment) returns (r: Result<PageFields, Error>)
    requires pool.Valid()
    modifies pool
    ensures pool.Valid() && pool.checkedOut == old(pool.checkedOut)
    ensures r == if old(pool.checkedOut) < pool.max then PageFieldsFor(url, env) else Failure(PoolExhausted)
  {
    var acquired := pool.Acquire();
    if !acquired {
      return Failure(PoolExhausted);
    }
    var target := UnwrapRedirect(url, env.parseUrl);
    if target.None? {
      r := Failure(InvalidUrl);
    } else {
      var page := env.navigate(target.value);
      if page.None? {
        r := Failure(FetchFailed);
      } else {
        r := Classify(page.value, target.value, env);
      }
    }
    pool.Destroy();
  }

  // ---------------------------------------------------------------------------
  // add
  // ---------------------------------------------------------------------------

  /** The record `add` builds from the fetched fields. */
  function Record(email: string, fields: PageFields, hostname: string): (rec: NewLink)
    ensures rec.email == email && rec.url == fields.url && rec.domain == hostname
    ensures rec.title == Some(fields.title) && rec.description == fields.description && rec.body.None?
    ensures rec.favicon == fields.favicon && rec.faviconColor == fields.faviconColor
    ensures rec.faviconTailwindColor == fields.faviconTailwindColor
  {
    NewLink(email, fields.url, hostname, Some(fields.title), fields.description, None,
            fields.favicon, fields.faviconColor, fields.faviconTailwindColor)
  }

  /** `add`: fetch, skip when the owner already has a row with the final URL
      (deleted or not), otherwise insert one row whose domain is the final
      URL's hostname. */
  method Add(table: Table, pool: PagePool, env: Environment, email: string, urlRaw: string, now: int, insertOk: bool)
    returns (r: Result<(), Error>)
    requires table.Valid() && pool.Valid() && table.clock <= now
    modifies table, pool
    ensures table.Valid() && pool.Valid() && pool.checkedOut == old(pool.checkedOut)
    ensures old(table.clock) <= table.clock <= now
    ensures var fetched := if old(pool.checkedOut) < pool.max then PageFieldsFor(urlRaw, env) else Failure(PoolExhausted);
            fetched.Failure? ==> r == Failure(fetched.error) && table.rows == old(table.rows)
    ensures var fetched := if old(pool.checkedOut) < pool.max then PageFieldsFor(urlRaw, env) else Failure(PoolExhausted);
            fetched.Success? && HasLink(old(table.rows), email, fetched.value.url) ==>
              r.Success? && table.rows == old(table.rows)
    ensures var fetched := if old(pool.checkedOut) < pool.max then PageFieldsFor(urlRaw, env) else Failure(PoolExhausted);
            fetched.Success? && !HasLink(old(table.rows), email, fetched.value.url) ==>
              match env.parseUrl(fetched.value.url)
              case None => r == Failure(InvalidUrl) && table.rows == old(table.rows)
              case Some(u) =>
                if insertOk then r.Success? && table.rows == Inserted(old(table.rows), Record(email, fetched.value, u.hostname), now)
                else r == Failure(StoreFailed) && table.rows == old(table.rows)
  {
    var fetched := GetPageFields(pool, urlRaw, env);
    if fetched.Failure? {
      return Failure(fetched.error);
    }
    var fields := fetched.value;
    if table.Contains(email, fields.url) {
      return Success(());
    }
    var parsed := env.parseUrl(fields.url);
    if parsed.None? {
      return Failure(InvalidUrl);
    }
    r := table.Insert(Record(email, fields, parsed.value.hostname), now, insertOk);
  }

}

=== FILE: text.dfy ===
/** String helpers that stand for the JavaScript string methods the core uses. */
module Text {

  /** `s.startsWith(prefix)` */
  predicate StartsWith(s: string, prefix: string)
  {
    |prefix| <= |s| && s[..|prefix|] == prefix
  }

  /** `s.endsWith(suffix)` */
  predicate EndsWith(s: string, suffix: string)
  {
    |suffix| <= |s| && s[|s| - |suffix|..] == suffix
  }

  /** `s.includes(sub)` */
  predicate Contains(s: string, sub: string)
  {
    if StartsWith(s, sub) then true
    else if |s| == 0 then false
    else Contains(s[1..], sub)
  }

  function Min(a: int, b: int): int
  {
    if a <= b then a else b
  }

  /** Lower-casing restricted to ASCII letters; the only comparisons the core
      makes after lower-casing are against ASCII literals. */
  function LowerChar(c: char): char
  {
    if 'A' <= c <= 'Z' then (c as int + 32) as char else c
  }

  function Lower(s: string): string
  {
    seq(|s|, i requires 0 <= i < |s| => LowerChar(s[i]))
  }

}

=== FILE: web.dfy ===
/** What the link-capture pipeline sees of the outside world: parsed URLs,
    the fields read from a rendered page, the errors that escape a fetch, and
    the bounded pool of browser pages (generic-pool with min 1, max 5). */
module Web {
  import opened Wrappers
  import opened Text

  /** The parts of a WHATWG `URL` the core reads. `query` lists the decoded
      search parameters in order. */
  datatype Url = Url(hostname: string, pathname: string, query: seq<(string, string)>)

  /** `searchParams.get(key)`: the first value for `key`, or null. */
  function QueryGet(query: seq<(string, string)>, key: string): (v: Option<string>)
    ensures v.Some? <==> exists i :: 0 <= i < |query| && query[i].0 == key
    ensures v.Some? ==> exists i :: 0 <= i < |query| && query[i] == (key, v.value) &&
                          forall j :: 0 <= j < i ==> query[j].0 != key
  {
    if query == [] then None
    else if query[0].0 == key then Some(query[0].1)
    else QueryGet(query[1..], key)
  }

  /** `searchParams.has(key)` */
  predicate QueryHas(query: seq<(string, string)>, key: string)
  {
    exists i :: 0 <= i < |query| && query[i].0 == key
  }

  /** What a navigated browser page reports: the response's content-type
      header (None when there is no response or no header), the page's final
      URL, `page.title()`, the `content` attribute and the text content of
      `meta[name="description"]`, and the `href` of `link[rel="icon"]`. */
  datatype LoadedPage = LoadedPage(
    contentType: Option<string>,
    finalUrl: string,
    title: string,
    metaContent: Option<string>,
    metaText: Option<string>,
    iconHref: Option<string>)

  /** Errors that escape the pipeline. Fetch errors are rethrown as they are,
      so only their origin is kept. */
  datatype Error =
    | PoolExhausted   // no page could be checked out
    | InvalidUrl      // `new URL(...)` threw
    | FetchFailed     // the HTTP request or the navigation threw
    | StoreFailed     // "Error storing new link"

  /** The page pool, reduced to the number of pages checked out. */
  class PagePool {
    var checkedOut: nat
    const max: nat

    ghost predicate Valid()
      reads this
    {
      checkedOut <= max
    }

    constructor ()
      ensures Valid() && checkedOut == 0 && max == 5
    {
      checkedOut := 0;
      max := 5;
    }

    /** `pool.acquire()`. generic-pool would suspend the caller while all
        pages are out; no other request runs in this sequential model, so a
        full pool is reported as a failure instead. */
    method Acquire() returns (ok: bool)
      requires Valid()
      modifies this
      ensures Valid()
      ensures ok <==> old(checkedOut) < max
      ensures checkedOut == if ok then old(checkedOut) + 1 else old(checkedOut)
    {
      ok := checkedOut < max;
      if ok {
        checkedOut := checkedOut + 1;
      }
    }

    /** `pool.destroy(page)` for a page this caller holds. */
    method Destroy()
      requires Valid() && checkedOut > 0
      modifies this
      ensures Valid()
      ensures checkedOut == old(checkedOut) - 1
    {
      checkedOut := checkedOut - 1;
    }
  }

}

=== FILE: wrappers.dfy ===
/** Option and Result, the two failure-carrying wrappers the model uses in
    place of JavaScript's null/undefined and thrown exceptions. */
module Wrappers {

  datatype Option<+T> = None | Some(value: T)

  datatype Result<+T, +E> = Success(value: T) | Failure(error: E)

}
